=== FILE: README.md ===
# A model of the marketing site's admin panel and interactive pages

The site is a React single-page application backed by a hosted
Postgres/storage service. Its admin panel has one editor per kind of
content: a batch list editor for testimonials, single-record form editors
for CMS pages, services, pricing tiers, team members and contact settings, a
blog post editor with its list, and a media library over an upload bucket.
A route guard decides who may see the panel, and the panel's frame
highlights the navigation item of the current path. The public pages add a
searchable blog index, a pricing page with a monthly/annual switch, and an
FAQ accordion.

This project restates that behaviour in Dafny and proves what each screen
promises. Every editor is a class whose fields are the component's state
(`useState`). Its methods are the event handlers and state changes of the
source. Pure computations, like slug rules, search filters, badge choices
and the rows a batch save sends, are functions with lemmas about them. What
comes from outside is a parameter of the method that needs it:

- the backend's replies (rows fetched, success or failure of a write, rows
  returned by an insert);
- the confirmation dialog's answer;
- the clock and the random part of upload names.

Layout, one module per source file:

| file | module | source |
|---|---|---|
| `common.dfy` | `Common` | `Option`, `Array.prototype.filter`, removal by index |
| `text.dfy` | `Text` | `toLowerCase`, `includes`, `startsWith`, `trim`, `split`, `join` (ASCII) |
| `slugs.dfy` | `Slugs` | the three slug rules (blog, pages, services) |
| `testimonials.dfy` | `Testimonials` | `src/pages/admin/TestimonialEditor.tsx` |
| `blog_editor.dfy` | `BlogEditing` | `src/pages/admin/BlogEditor.tsx` |
| `blog_list.dfy` | `BlogListing` | `src/pages/admin/BlogList.tsx` |
| `pages_manager.dfy` | `PagesManagement` | `src/pages/admin/PagesManager.tsx` |
| `features.dfy` | `FeatureLists` | the feature-line helpers of the services and pricing managers |
| `services_manager.dfy` | `ServicesManagement` | `src/pages/admin/ServicesManager.tsx` |
| `pricing_manager.dfy` | `PricingManagement` | `src/pages/admin/PricingManager.tsx` |
| `about_editor.dfy` | `AboutEditing` | `src/pages/admin/AboutEditor.tsx` |
| `contact_editor.dfy` | `ContactEditing` | `src/pages/admin/ContactEditor.tsx` |
| `media_library.dfy` | `Media` | `src/pages/admin/MediaLibrary.tsx` |
| `protected_route.dfy` | `RouteGuard` | `src/components/ProtectedRoute.tsx` |
| `admin_layout.dfy` | `AdminLayoutModel` | `src/components/admin/AdminLayout.tsx` |
| `public_blog.dfy` | `PublicBlog` | `src/pages/Blog.tsx` |
| `pricing_page.dfy` | `PricingPage` | `src/pages/Pricing.tsx` |
| `faq_section.dfy` | `Faq` | `src/components/FAQSection.tsx` |

A save of the testimonial list sends one write for every record in the
list (`src/pages/admin/TestimonialEditor.tsx:109-126`). A record with an id
is sent as an `update(...).eq('id', …)`. A record without one is sent as an
`insert`. The model keeps the two kinds of write apart. Start from
`[A(id 1, order 0), B(id 2, order 1)]`, delete A, add C and save. The
backend then receives the delete of `"1"`, then `Update("2", B with order
0)` and `Insert(C with order 1)`. `Testimonials.RemoveAddSaveScenario`
proves this sequence.

## Model

| member | source | states |
|---|---|---|
| Common.Filter | src/pages/admin/BlogList.tsx:64-71 | `filter` keeps only elements satisfying the predicate, in their original order, and never lengthens the list |
| Common.FilterMembers | src/pages/admin/BlogList.tsx:64-71 | an element is in the filtered list iff it is in the list and satisfies the predicate |
| Common.FilterThenFilter | src/pages/admin/BlogList.tsx:60-75 | filtering by the term and then by the status equals one filter by both conditions |
| Common.RemoveAt | src/pages/admin/TestimonialEditor.tsx:102-103 | `filter((_, i) => i !== index)` removes exactly position `index`: earlier elements stay, later ones shift up by one, an index out of range changes nothing |
| Common.Range | src/pages/admin/TestimonialEditor.tsx:109-113 | the list 0..n-1, used as the sort orders a save assigns |
| Text.Lower | src/pages/admin/PagesManager.tsx:128-131 | `toLowerCase` keeps the length and lowers each ASCII capital, leaving every other character |
| Text.LowerIdempotent | src/pages/admin/PagesManager.tsx:128-131 | lowering twice is lowering once |
| Text.IncludesIffOccurs | src/pages/admin/PagesManager.tsx:129-130 | `includes` holds iff the needle occurs at some position of the haystack |
| Text.IncludesEmpty | src/pages/admin/MediaLibrary.tsx:156-158 | every string includes the empty string, so an empty search matches everything |
| Text.Includes | src/pages/admin/PagesManager.tsx:129-130 | `hay.includes(needle)`: some suffix of the haystack starts with the needle (tied to occurrence by `IncludesIffOccurs`) |
| Text.StartsWith | src/components/admin/AdminLayout.tsx:37 | `s.startsWith(prefix)`: the prefix is no longer than `s` and equals its first characters |
| Text.TrimIsWindow | src/pages/admin/BlogEditor.tsx:171 | `trim` returns a contiguous window of its input that neither starts nor ends with whitespace, and everything cut off is whitespace |
| Text.TrimEmptyIffBlank | src/pages/admin/AboutEditor.tsx:128 | a string trims to empty iff every character is whitespace |
| Text.Trim | src/pages/admin/BlogEditor.tsx:171 | `trim` never lengthens its input, and a non-empty result neither starts nor ends with whitespace |
| Text.Split | src/pages/admin/PagesManager.tsx:366 | `split(sep)` yields at least one piece, no piece holds the separator, and there is exactly one piece iff the input has no separator |
| Text.JoinSplit | src/pages/admin/PagesManager.tsx:366 | joining the pieces of a split with the same separator gives the input back |
| Text.Join | src/pages/admin/PagesManager.tsx:366 | `parts.join(sep)`: the pieces with one separator between neighbours, the inverse of `Split` by `JoinSplit` |
| Text.LastPiece | src/pages/admin/MediaLibrary.tsx:78 | `split(sep).pop()` holds no separator |
| Text.LastPieceAfterSep | src/pages/admin/MediaLibrary.tsx:78-79 | text after a final separator that holds no separator is exactly the last piece |
| Text.SplitWithoutSep | src/pages/admin/MediaLibrary.tsx:78 | a string without the separator splits into itself alone |
| Text.SplitLastStartsAfterSep | src/pages/admin/MediaLibrary.tsx:78 | the last piece is a suffix of the input that starts at position 0 or right after a separator |
| Text.LastPieceWholeIff | src/pages/admin/MediaLibrary.tsx:78 | the last piece is the whole input iff the input holds no separator |
| Slugs.ReplaceRuns | src/pages/admin/BlogEditor.tsx:63-64 | `replace(/X+/g, c)` leaves no two adjacent characters of class X, and every character of X that remains is `c` |
| Slugs.ReplaceRunsKeepsOthers | src/pages/admin/PagesManager.tsx:199 | when `c` is in class X, the characters outside X come out unchanged and in their order |
| Slugs.ReplaceRunsOnePerRun | src/pages/admin/ServicesManager.tsx:206 | when `c` is in class X, each maximal run of X leaves exactly one character of X, so their number is the number of runs |
| Slugs.ReplaceRunsFixed | src/pages/admin/BlogEditor.tsx:63-64 | a string whose class-X characters are already single `c`s is left unchanged |
| Slugs.BlogSlug | src/pages/admin/BlogEditor.tsx:60-65 | the blog rule yields only `[a-z0-9-]`, never two hyphens in a row, and a slug no longer than the title |
| Slugs.BlogSlugFixed | src/pages/admin/BlogEditor.tsx:60-65 | a string of that shape passes through the blog rule unchanged |
| Slugs.BlogSlugIdempotent | src/pages/admin/BlogEditor.tsx:60-65 | slugifying a blog slug again changes nothing |
| Slugs.PageSlug | src/pages/admin/PagesManager.tsx:199 | the pages rule yields only `[a-z0-9_-]`, no longer than the input |
| Slugs.PageSlugFixed | src/pages/admin/PagesManager.tsx:211 | a string of `[a-z0-9_-]` passes through the pages rule unchanged |
| Slugs.PageSlugIdempotent | src/pages/admin/PagesManager.tsx:209-212 | re-sanitising a page slug in the slug field leaves it unchanged |
| Slugs.PunctuationGivesEmptySlug | src/pages/admin/PagesManager.tsx:199 | a title with no letter, digit, underscore, hyphen or whitespace gives the empty page slug |
| Slugs.PageSlugKeepsHyphenRuns | src/pages/admin/PagesManager.tsx:199 | unlike the blog rule, the pages rule does not collapse runs of hyphens (`a--b` stays) |
| Slugs.ServiceSlug | src/pages/admin/ServicesManager.tsx:206 | a service slug holds no whitespace and no capital letter, and is no longer than the input |
| Slugs.ServiceSlugFixed | src/pages/admin/ServicesManager.tsx:206 | a string with no whitespace and no capital letter passes through the services rule unchanged |
| Slugs.ServiceSlugIdempotent | src/pages/admin/ServicesManager.tsx:206 | the services rule is idempotent |
| Testimonials.Get | src/pages/admin/TestimonialEditor.tsx:13-24 | reading a field yields a value of the type the interface declares for it |
| Testimonials.FieldsDetermineRecord | src/pages/admin/TestimonialEditor.tsx:13-24 | two testimonials that agree on every field are equal |
| Testimonials.Set | src/pages/admin/TestimonialEditor.tsx:72-76 | `{ ...t, [field]: value }` gives field `f` the new value and every other field its old one |
| Testimonials.NewTestimonial | src/pages/admin/TestimonialEditor.tsx:57-70 | the added record has no id, rating 5, is not featured, is active, and takes the list length as its sort order |
| Testimonials.HasId | src/pages/admin/TestimonialEditor.tsx:81 | `if (testimonial.id)`: an id is present and, by JavaScript truthiness, not empty |
| Testimonials.WriteFor | src/pages/admin/TestimonialEditor.tsx:109-126 | a record's write carries it with `sort_order` set to its position; it is an update keyed by its id iff it has a (non-empty) id, and an insert otherwise |
| Testimonials.SaveWrites | src/pages/admin/TestimonialEditor.tsx:109-129 | a save issues exactly one write per record, in list order |
| Testimonials.SaveSortOrderIsDense | src/pages/admin/TestimonialEditor.tsx:109-113 | the sort orders sent are exactly 0, 1, …, n-1 |
| Testimonials.SaveWritesCarryRecords | src/pages/admin/TestimonialEditor.tsx:111-126 | apart from `sort_order` each write carries its record unchanged, under the record's id when it has one |
| Testimonials.Merge | src/pages/admin/TestimonialEditor.tsx:132-140 | after a save, every record with an id stays as it was; every record without one is replaced by the row returned for it, if a row was returned |
| Testimonials.MergeIgnoresErrors | src/pages/admin/TestimonialEditor.tsx:132-138 | the merge depends only on the returned rows, never on per-call errors |
| Testimonials.SavedRecordsAllHaveIds | src/pages/admin/TestimonialEditor.tsx:132-140 | when every insert returns a row with an id, every record has an id afterwards and the next save sends only updates |
| Testimonials.TestimonialEditor.constructor | src/pages/admin/TestimonialEditor.tsx:26-28 | the editor starts empty and loading |
| Testimonials.TestimonialEditor.Fetch | src/pages/admin/TestimonialEditor.tsx:36-55 | fetched rows replace the list; a failed fetch keeps it; loading ends either way |
| Testimonials.TestimonialEditor.Add | src/pages/admin/TestimonialEditor.tsx:57-70 | appends `NewTestimonial(n)` and changes nothing else; no backend call |
| Testimonials.TestimonialEditor.Update | src/pages/admin/TestimonialEditor.tsx:72-76 | only the chosen field of the chosen record changes |
| Testimonials.TestimonialEditor.Remove | src/pages/admin/TestimonialEditor.tsx:78-104 | a record without an id is dropped with no backend call; a record with an id is deleted only after confirmation, and leaves the list only when the delete succeeds |
| Testimonials.TestimonialEditor.Save | src/pages/admin/TestimonialEditor.tsx:106-156 | sends `SaveWrites` of the list; when every call resolves, the returned rows are merged and success is reported; when a call throws, the list is left unchanged |
| Testimonials.RemoveAddSaveScenario | src/pages/admin/TestimonialEditor.tsx:78-140 | delete A, add C, save: the backend gets the delete of A's id, then an update of B at order 0 and an insert of C at order 1, and C is replaced by its returned row |
| BlogEditing.EmptyPost | src/pages/admin/BlogEditor.tsx:34-46 | a new post starts with empty title, slug and content, no tags, and status draft |
| BlogEditing.IsEditing | src/pages/admin/BlogEditor.tsx:32 | `Boolean(id && id !== 'new')`: the route names a non-empty id other than `new` |
| BlogEditing.NewRouteCreates | src/pages/admin/BlogEditor.tsx:32 | the routes `new`, empty and absent create; any other id edits |
| BlogEditing.PublishedAt | src/pages/admin/BlogEditor.tsx:106 | `published_at` is set iff the status is published, and then it is the save time |
| BlogEditing.RequestFor | src/pages/admin/BlogEditor.tsx:104-125 | a save sends the post with its `published_at`: an update by the route id iff editing, an insert otherwise |
| BlogEditing.AddTagTo | src/pages/admin/BlogEditor.tsx:170-178 | the old tags are kept in order and at most one tag is added; one is added iff the trimmed input is non-blank and not already a tag, and it is that trimmed input; the tags stay free of duplicates |
| BlogEditing.RemoveTagFrom | src/pages/admin/BlogEditor.tsx:180-185 | no remaining tag equals the removed one, and the others keep their order |
| BlogEditing.RemoveTagMembers | src/pages/admin/BlogEditor.tsx:180-185 | a tag remains iff it was there and is not the removed one |
| BlogEditing.RemoveUndoesAdd | src/pages/admin/BlogEditor.tsx:170-185 | removing a tag just added restores the previous tags |
| BlogEditing.BlogEditor.constructor | src/pages/admin/BlogEditor.tsx:29-49 | the form starts from the empty post and is loading iff it edits an existing post |
| BlogEditing.BlogEditor.Fetch | src/pages/admin/BlogEditor.tsx:70-90 | the stored post replaces the form; a failed fetch keeps it; loading ends |
| BlogEditing.BlogEditor.SetTitle | src/pages/admin/BlogEditor.tsx:57-68 | the title is taken as typed; while creating, a non-empty title also resets the slug to a well-formed blog slug; editing leaves the slug alone |
| BlogEditing.BlogEditor.SetSlug | src/pages/admin/BlogEditor.tsx:244 | the slug is taken as typed; nothing else changes |
| BlogEditing.BlogEditor.SetStatus | src/pages/admin/BlogEditor.tsx:318 | the status changes; nothing else does |
| BlogEditing.BlogEditor.Save | src/pages/admin/BlogEditor.tsx:92-141 | a post without title or content is rejected with nothing sent; otherwise `RequestFor` is sent, and only a successful insert navigates to `/admin/blog/<new id>` |
| BlogEditing.BlogEditor.Delete | src/pages/admin/BlogEditor.tsx:143-168 | only an existing post, and only after confirmation, is deleted by its route id; a successful delete navigates to `/admin/blog` |
| BlogEditing.BlogEditor.SetTagInput | src/pages/admin/BlogEditor.tsx:350 | the tag field holds what was typed |
| BlogEditing.BlogEditor.AddTag | src/pages/admin/BlogEditor.tsx:170-178 | the tags become `AddTagTo` of the input, and the field is cleared iff a tag was added |
| BlogEditing.BlogEditor.RemoveTag | src/pages/admin/BlogEditor.tsx:180-185 | the tags become `RemoveTagFrom` of the tag |
| BlogListing.ShownPosts | src/pages/admin/BlogList.tsx:60-75 | the list shows, in order, only posts matching both the search term and the status filter |
| BlogListing.ShownPostsMembers | src/pages/admin/BlogList.tsx:60-75 | a post is shown iff it is loaded and matches both |
| BlogListing.NoFilterShowsAll | src/pages/admin/BlogList.tsx:60-75 | with the initial empty term and status `all` every post is shown |
| BlogListing.WithoutId | src/pages/admin/BlogList.tsx:88 | after a delete no row has the deleted id, and the others keep their order |
| BlogListing.WithoutIdMembers | src/pages/admin/BlogList.tsx:88 | a row stays iff its id is a different one |
| BlogListing.BadgeVariant | src/pages/admin/BlogList.tsx:103-114 | published gets the default badge, archived the outline badge, and every other status the secondary badge |
| BlogListing.DeletedPostNotShown | src/pages/admin/BlogList.tsx:88 | after a delete, whatever the filters, no shown row has the deleted id |
| BlogListing.BlogList.constructor | src/pages/admin/BlogList.tsx:24-28 | the list starts empty and loading, with an empty term and status `all` |
| BlogListing.BlogList.Refilter | src/pages/admin/BlogList.tsx:60-75 | the two-stage filter (term, if any, then status, unless `all`) leaves the shown list equal to `ShownPosts` of the state |
| BlogListing.BlogList.Fetch | src/pages/admin/BlogList.tsx:31-58 | fetched rows replace the list, a failed fetch keeps it, and the shown list follows |
| BlogListing.BlogList.SetSearchTerm | src/pages/admin/BlogList.tsx:35-37 | the term changes and the shown list is recomputed |
| BlogListing.BlogList.SetStatusFilter | src/pages/admin/BlogList.tsx:35-37 | the status filter changes and the shown list is recomputed |
| BlogListing.BlogList.Delete | src/pages/admin/BlogList.tsx:77-101 | after confirmation the post is deleted; on success, and only then, its rows leave the list without a reload, and the shown list stays consistent |
| PagesManagement.NewPage | src/pages/admin/PagesManager.tsx:113-126 | the new page has empty id, title and slug and is active |
| PagesManagement.FilteredPages | src/pages/admin/PagesManager.tsx:128-131 | the grid shows, in order, only pages whose lower-cased title or slug contains the lower-cased term |
| PagesManagement.FilteredPagesMembers | src/pages/admin/PagesManager.tsx:128-131 | a page is shown iff it is loaded and matches |
| PagesManagement.EmptySearchListsAll | src/pages/admin/PagesManager.tsx:128-131 | an empty search shows every page |
| PagesManagement.SearchIgnoresTermCase | src/pages/admin/PagesManager.tsx:128-131 | searching for a term and for its lower-case form show the same pages |
| PagesManagement.KeywordBadges | src/pages/admin/PagesManager.tsx:362-371 | no badges for missing or empty keywords, otherwise one trimmed badge per comma-separated piece |
| PagesManagement.KeywordBadgesArePieces | src/pages/admin/PagesManager.tsx:366-368 | no badge holds a comma, and the pieces joined with commas give the keywords back |
| PagesManagement.PagesManager.constructor | src/pages/admin/PagesManager.tsx:26-30 | the manager starts empty, loading, not editing, with an empty search |
| PagesManagement.PagesManager.Fetch | src/pages/admin/PagesManager.tsx:37-56 | fetched rows replace the list; a failed fetch keeps it; loading ends |
| PagesManagement.PagesManager.SetSearchTerm | src/pages/admin/PagesManager.tsx:30 | the search term holds what was typed |
| PagesManagement.PagesManager.AddNew | src/pages/admin/PagesManager.tsx:113-126 | the form opens on `NewPage` |
| PagesManagement.PagesManager.Edit | src/pages/admin/PagesManager.tsx:333 | the form opens on the chosen page |
| PagesManagement.PagesManager.Cancel | src/pages/admin/PagesManager.tsx:300 | the form closes |
| PagesManagement.PagesManager.SetTitle | src/pages/admin/PagesManager.tsx:196-200 | the title is taken as typed and the slug is regenerated from it, holding only `[a-z0-9_-]` |
| PagesManagement.PagesManager.SetSlug | src/pages/admin/PagesManager.tsx:209-212 | the typed slug passes through the same rule and holds only `[a-z0-9_-]` |
| PagesManagement.PagesManager.CanSave | src/pages/admin/PagesManager.tsx:306 | the save button is enabled iff no save is running and the edited page has a non-empty title and slug |
| PagesManagement.PagesManager.Save | src/pages/admin/PagesManager.tsx:58-84 | upserts the edited page (enabled only with a title and slug); on success the list is reloaded and the form closes, on failure both stay |
| PagesManagement.PagesManager.Delete | src/pages/admin/PagesManager.tsx:86-111 | deletes by id only after confirmation; only a successful delete reloads the list |
| PagesManagement.PunctuationTitleCannotBeSaved | src/pages/admin/PagesManager.tsx:306 | for every title of punctuation only, the slug the title field sets is empty, so the save button stays disabled |
| FeatureLists.SetFeature | src/pages/admin/ServicesManager.tsx:133-138 | line `index` becomes the typed value and the other lines stay |
| FeatureLists.SetFeatureUndo | src/pages/admin/PricingManager.tsx:127-132 | setting a line back to its old value restores the list |
| FeatureLists.AddBlankFeature | src/pages/admin/ServicesManager.tsx:140-146 | one blank line is appended after the existing ones |
| FeatureLists.RemoveFeature | src/pages/admin/PricingManager.tsx:142-146 | removing line `index` keeps the lines before it and shifts the later ones up by one, so exactly that line leaves the multiset of lines; an index out of range changes nothing |
| FeatureLists.RemoveUndoesAddFeature | src/pages/admin/ServicesManager.tsx:140-152 | removing the line just added restores the list |
| ServicesManagement.NewService | src/pages/admin/ServicesManager.tsx:115-131 | the new service has empty id, title and slug, the `Settings` icon, no features, is active, and is placed after the existing services |
| ServicesManagement.ServicesManager.constructor | src/pages/admin/ServicesManager.tsx:29-32 | the manager starts empty, loading, not editing |
| ServicesManagement.ServicesManager.Fetch | src/pages/admin/ServicesManager.tsx:39-58 | fetched rows replace the list; a failed fetch keeps it; loading ends |
| ServicesManagement.ServicesManager.AddNew | src/pages/admin/ServicesManager.tsx:115-131 | the form opens on `NewService` of the list length |
| ServicesManagement.ServicesManager.Edit | src/pages/admin/ServicesManager.tsx:379 | the form opens on the chosen service |
| ServicesManagement.ServicesManager.Cancel | src/pages/admin/ServicesManager.tsx:346 | the form closes |
| ServicesManagement.ServicesManager.SetTitle | src/pages/admin/ServicesManager.tsx:203-207 | the title is taken as typed and the slug regenerated, holding no whitespace and no capital |
| ServicesManagement.ServicesManager.SetSlug | src/pages/admin/ServicesManager.tsx:216-219 | the slug is taken exactly as typed |
| ServicesManagement.ServicesManager.UpdateFeature | src/pages/admin/ServicesManager.tsx:133-138 | the edited service's features become `SetFeature`; with no service edited nothing changes |
| ServicesManagement.ServicesManager.AddFeature | src/pages/admin/ServicesManager.tsx:140-146 | the features become `AddBlankFeature`; with no service edited nothing changes |
| ServicesManagement.ServicesManager.RemoveFeatureAt | src/pages/admin/ServicesManager.tsx:148-152 | the features become `RemoveFeature`; with no service edited nothing changes |
| ServicesManagement.ServicesManager.Save | src/pages/admin/ServicesManager.tsx:60-86 | upserts the edited service; on success the list is reloaded and the form closes, on failure both stay |
| ServicesManagement.ServicesManager.Delete | src/pages/admin/ServicesManager.tsx:88-113 | deletes by id only after confirmation; only a successful delete reloads the list |
| ServicesManagement.AddThenRemoveFeature | src/pages/admin/ServicesManager.tsx:140-152 | adding a feature line and removing it again leaves the edited service as it was |
| PricingManagement.NewTier | src/pages/admin/PricingManager.tsx:112-125 | the new tier has empty id and name, both prices 0, no features, is not featured, is active, and is placed last |
| PricingManagement.CardSavings | src/pages/admin/PricingManager.tsx:367 | the card's saving is positive iff the annual price is below twelve monthly prices, and zero iff it equals them |
| PricingManagement.PricingManager.constructor | src/pages/admin/PricingManager.tsx:26-29 | the manager starts empty, loading, not editing |
| PricingManagement.PricingManager.Fetch | src/pages/admin/PricingManager.tsx:36-55 | fetched rows replace the list; a failed fetch keeps it; loading ends |
| PricingManagement.PricingManager.AddNew | src/pages/admin/PricingManager.tsx:112-125 | the form opens on `NewTier` of the list length |
| PricingManagement.PricingManager.Edit | src/pages/admin/PricingManager.tsx:343 | the form opens on the chosen tier |
| PricingManagement.PricingManager.Cancel | src/pages/admin/PricingManager.tsx:312 | the form closes |
| PricingManagement.PricingManager.SetMonthlyPrice | src/pages/admin/PricingManager.tsx:211-214 | `parseFloat(v) || 0`: the monthly price becomes the number the text reads as, or 0 when it reads as none; nothing else changes |
| PricingManagement.PricingManager.SetAnnualPrice | src/pages/admin/PricingManager.tsx:225-228 | the annual price becomes the number the text reads as, or 0 when it reads as none; nothing else changes |
| PricingManagement.PricingManager.UpdateFeature | src/pages/admin/PricingManager.tsx:127-132 | the edited tier's features become `SetFeature`; with no tier edited nothing changes |
| PricingManagement.PricingManager.AddFeature | src/pages/admin/PricingManager.tsx:134-140 | the features become `AddBlankFeature`; with no tier edited nothing changes |
| PricingManagement.PricingManager.RemoveFeatureAt | src/pages/admin/PricingManager.tsx:142-146 | the features become `RemoveFeature`; with no tier edited nothing changes |
| PricingManagement.PricingManager.Save | src/pages/admin/PricingManager.tsx:57-83 | upserts the edited tier; on success the list is reloaded and the form closes, on failure both stay |
| PricingManagement.PricingManager.Delete | src/pages/admin/PricingManager.tsx:85-110 | deletes by id only after confirmation; only a successful delete reloads the list |
| AboutEditing.NewMember | src/pages/admin/AboutEditor.tsx:111-123 | the new member has empty id, name and role, no social links, is active, and is placed last |
| AboutEditing.UpdateSocialLink | src/pages/admin/AboutEditor.tsx:125-134 | a platform has a link iff the URL typed has a non-whitespace character, and the URL is then stored untrimmed; every other platform keeps its link |
| AboutEditing.UpdateKeepsNoBlankLinks | src/pages/admin/AboutEditor.tsx:125-134 | updating a link never leaves a blank URL in the map |
| AboutEditing.LinkFieldShowsTyped | src/pages/admin/AboutEditor.tsx:250-283 | after typing, a link field shows the typed URL, or nothing when it was blank |
| AboutEditing.ClearUndoesSet | src/pages/admin/AboutEditor.tsx:125-134 | typing a URL into an empty field and clearing it restores the links |
| AboutEditing.Badges | src/pages/admin/AboutEditor.tsx:364-373 | a card shows a badge exactly for each platform that has a link |
| AboutEditing.BadgesAfterUpdate | src/pages/admin/AboutEditor.tsx:125-134 | typing a URL with a non-whitespace character adds that platform's badge, a blank one removes it, and no other badge changes |
| AboutEditing.BadgeHasLink | src/pages/admin/AboutEditor.tsx:364-373 | on a member without blank links, every badge's link field shows a non-empty URL |
| AboutEditing.AboutEditor.constructor | src/pages/admin/AboutEditor.tsx:25-28 | the editor starts empty, loading, not editing |
| AboutEditing.AboutEditor.Fetch | src/pages/admin/AboutEditor.tsx:35-54 | fetched rows replace the list; a failed fetch keeps it; loading ends |
| AboutEditing.AboutEditor.AddNew | src/pages/admin/AboutEditor.tsx:111-123 | the form opens on `NewMember` of the list length |
| AboutEditing.AboutEditor.Edit | src/pages/admin/AboutEditor.tsx:338 | the form opens on the chosen member |
| AboutEditing.AboutEditor.Cancel | src/pages/admin/AboutEditor.tsx:291 | the form closes |
| AboutEditing.AboutEditor.SetSocialLink | src/pages/admin/AboutEditor.tsx:125-134 | the edited member's links become `UpdateSocialLink`; with no member edited nothing changes |
| AboutEditing.AboutEditor.Save | src/pages/admin/AboutEditor.tsx:56-82 | upserts the edited member; on success the list is reloaded and the form closes, on failure both stay |
| AboutEditing.AboutEditor.Delete | src/pages/admin/AboutEditor.tsx:84-109 | deletes by id only after confirmation; only a successful delete reloads the list |
| ContactEditing.DefaultBusinessHours | src/pages/admin/ContactEditor.tsx:20-28 | the default week lists the seven days, 9:00 AM - 6:00 PM on weekdays and Closed at the weekend |
| ContactEditing.InitialSettings | src/pages/admin/ContactEditor.tsx:31-38 | before loading the form shows no id and the default week |
| ContactEditing.FromStored | src/pages/admin/ContactEditor.tsx:59-64 | a loaded row keeps its fields, and null hours fall back to the default week |
| ContactEditing.FromStoredToStored | src/pages/admin/ContactEditor.tsx:59-64 | loading what was saved gives back the settings that were saved |
| ContactEditing.UpdateBusinessHour | src/pages/admin/ContactEditor.tsx:104-112 | the day's hours become the typed text and every other day keeps its hours |
| ContactEditing.UpdateKeepsDays | src/pages/admin/ContactEditor.tsx:104-112 | editing a listed day neither adds nor removes a day |
| ContactEditing.ContactEditor.constructor | src/pages/admin/ContactEditor.tsx:31-40 | the editor starts on `InitialSettings`, loading |
| ContactEditing.FetchFailed | src/pages/admin/ContactEditor.tsx:55 | a fetch failed iff it reports an error whose code is not `PGRST116` (no row) |
| ContactEditing.ContactEditor.Fetch | src/pages/admin/ContactEditor.tsx:47-75 | only an error other than "no row" (`PGRST116`) is a failure; a returned row replaces the form; otherwise the form is kept; loading ends |
| ContactEditing.ContactEditor.SetBusinessHour | src/pages/admin/ContactEditor.tsx:104-112 | the hours become `UpdateBusinessHour`; nothing else changes |
| ContactEditing.ContactEditor.Save | src/pages/admin/ContactEditor.tsx:77-102 | upserts the settings as shown; a successful save refetches them, a failed one leaves the form |
| ContactEditing.FirstVisit | src/pages/admin/ContactEditor.tsx:47-75 | a site with no settings row opens on the default week with no error |
| Media.AllowedType | src/pages/admin/MediaLibrary.tsx:67 | a type is accepted iff it starts with `image/` or `video/` or is exactly `application/pdf` |
| Media.CheckUpload | src/pages/admin/MediaLibrary.tsx:52-74 | no file does nothing; a file over 5 MiB is refused, then one whose type is not image, video or PDF; only the rest is accepted |
| Media.UploadCheckExamples | src/pages/admin/MediaLibrary.tsx:57-73 | the 5 MiB limit is inclusive, size is checked before type, and a text file is refused |
| Media.Extension | src/pages/admin/MediaLibrary.tsx:78 | the extension holds no dot, is the whole name iff the name has no dot, and is a suffix of the name that starts right after a dot (so after the last one) |
| Media.StoredName | src/pages/admin/MediaLibrary.tsx:79 | the stored name ends with a dot followed by the original extension |
| Media.StoredNameKeepsExtension | src/pages/admin/MediaLibrary.tsx:78-79 | the stored name's extension is the original file's extension |
| Media.FilteredFiles | src/pages/admin/MediaLibrary.tsx:156-158 | the grid shows, in order, only files whose lower-cased name contains the lower-cased term |
| Media.FilteredFilesMembers | src/pages/admin/MediaLibrary.tsx:156-158 | a file is shown iff it is listed and its name matches |
| Media.EmptyTermListsAll | src/pages/admin/MediaLibrary.tsx:156-158 | an empty search shows every file |
| Media.FirstPage | src/pages/admin/MediaLibrary.tsx:30-36 | a listing returns at most 100 files, a prefix of the stored order |
| Media.MediaLibrary.constructor | src/pages/admin/MediaLibrary.tsx:18-21 | the library starts empty, loading, not uploading, with an empty search |
| Media.MediaLibrary.Fetch | src/pages/admin/MediaLibrary.tsx:28-50 | the first page of the bucket replaces the list; a failed listing keeps it; loading ends |
| Media.MediaLibrary.Upload | src/pages/admin/MediaLibrary.tsx:52-105 | only an accepted file is uploaded, under `StoredName`; only a successful upload reloads the list; the uploading flag ends false |
| Media.MediaLibrary.Delete | src/pages/admin/MediaLibrary.tsx:107-131 | a file is removed only after confirmation; only a successful removal reloads the list |
| Media.MediaLibrary.SetSearchTerm | src/pages/admin/MediaLibrary.tsx:21 | the search term holds what was typed |
| RouteGuard.Guard | src/components/ProtectedRoute.tsx:20-50 | spinner iff loading; redirect to `/auth` (replacing history) iff loaded with no user; access denied iff a signed-in non-admin meets `requireAdmin`; the content otherwise |
| RouteGuard.GuardDefault | src/components/ProtectedRoute.tsx:10-50 | with `requireAdmin` left at its default of false nobody is ever denied, and every signed-in user gets the content once loading is over |
| RouteGuard.RequireAdminOnlyDenies | src/components/ProtectedRoute.tsx:34-47 | requiring admin only ever turns content into a denial |
| RouteGuard.AdminsPassEitherWay | src/components/ProtectedRoute.tsx:34 | an admin gets the same outcome with or without `requireAdmin` |
| AdminLayoutModel.IsActive | src/components/admin/AdminLayout.tsx:33-38 | the dashboard item is highlighted on an exact match only, every other item when the path starts with its href |
| AdminLayoutModel.PrefixesNest | src/components/admin/AdminLayout.tsx:37 | two prefixes of one path nest: the shorter is a prefix of the longer |
| AdminLayoutModel.NoHrefPrefixesAnother | src/components/admin/AdminLayout.tsx:18-26 | no navigation href other than the dashboard's is a prefix of another |
| AdminLayoutModel.AtMostOneActive | src/components/admin/AdminLayout.tsx:33-38 | for any path at most one navigation item is highlighted |
| AdminLayoutModel.RawPrefixMatch | src/components/admin/AdminLayout.tsx:37 | the prefix test ignores segment boundaries (`/admin/blogger` highlights Blog Posts), and the dashboard needs an exact match |
| AdminLayoutModel.Sidebar.constructor | src/components/admin/AdminLayout.tsx:31 | the sidebar starts closed |
| AdminLayoutModel.Sidebar.Open | src/components/admin/AdminLayout.tsx:116 | the menu button opens the sidebar |
| AdminLayoutModel.Sidebar.Close | src/components/admin/AdminLayout.tsx:46-82 | the overlay, the close button and each link close the sidebar |
| PublicBlog.FilteredArticles | src/pages/Blog.tsx:78-83 | the index shows, in order, only articles whose title or excerpt contains the query (ignoring case) and whose category is the chosen one or `All` |
| PublicBlog.FilteredArticlesMembers | src/pages/Blog.tsx:78-83 | an article is shown iff it matches both |
| PublicBlog.EmptyQueryMatches | src/pages/Blog.tsx:79-80 | every article matches the empty query |
| PublicBlog.InitiallyAllShown | src/pages/Blog.tsx:76-83 | the page opens showing all six articles in order |
| PublicBlog.EveryCategoryHasAButton | src/pages/Blog.tsx:12-75 | every article's category has a button, and that button shows the article |
| PricingPage.DisplayedPrice | src/pages/Pricing.tsx:137 | a card shows the annual price in annual mode and the monthly price otherwise |
| PricingPage.ShowsSavings | src/pages/Pricing.tsx:142-145 | the struck-through price and savings line show iff annual mode is on and the monthly price exceeds the annual one |
| PricingPage.YearlySavings | src/pages/Pricing.tsx:145 | the stated yearly saving is twelve times the monthly difference |
| PricingPage.ShownSavingsArePositive | src/pages/Pricing.tsx:142-145 | whenever the savings line shows, it states a positive multiple of 12 and the shown price is below the struck one |
| PricingPage.MonthlyShowsNoSavings | src/pages/Pricing.tsx:137-145 | in monthly mode no card shows savings |
| PricingPage.AnnualSavingsOfEveryPlan | src/pages/Pricing.tsx:142-145 | in annual mode all three cards show savings of 120, 600 and 1200 dollars a year |
| PricingPage.BadgeAgainstActualDiscounts | src/pages/Pricing.tsx:99-103 | the "Save 15%" badge matches only the Professional plan; Starter and Enterprise save less than 15% |
| PricingPage.PricingToggle.constructor | src/pages/Pricing.tsx:10 | the page starts in monthly mode |
| PricingPage.PricingToggle.ShowsSaveBadge | src/pages/Pricing.tsx:99-103 | the "Save 15%" badge shows iff annual mode is on |
| PricingPage.PricingToggle.SetAnnual | src/pages/Pricing.tsx:91-95 | the switch sets the mode |
| Faq.Toggle | src/components/FAQSection.tsx:58 | a click closes the item if it was open, and otherwise opens it; no other item is open afterwards |
| Faq.ToggleTwiceRestoresIff | src/components/FAQSection.tsx:58 | two clicks on one item restore the state iff no other item was open before |
| Faq.ToggleTwiceForgetsOtherItem | src/components/FAQSection.tsx:58 | with item 0 open, two clicks on item 1 close everything |
| Faq.FaqSection.constructor | src/components/FAQSection.tsx:5 | the first question starts open |
| Faq.FaqSection.Click | src/components/FAQSection.tsx:58 | a click applies `Toggle` and keeps the open item among the five questions |
| Faq.FaqSection.OpenCount | src/components/FAQSection.tsx:64-74 | at most one answer is shown, and one is shown iff some question is open |

## Left out

- Network and storage calls are not modelled as I/O. Each method takes the reply as a parameter: the rows, the success flag, or the rows an insert returns.
- Concurrency: the batch save's `Promise.all` (`TestimonialEditor.tsx:129`) is modelled as one step. Every call is issued, and then either all replies arrive or the whole save counts as thrown. Per-call interleaving and partial completion with a thrown call are not modelled.
- Testimonials.Merge: the `Array.isArray(data)` branch (`TestimonialEditor.tsx:135`) is not modelled. An insert with `.single()` returns one row, so the reply holds at most one row.
- Testimonials.TestimonialEditor.Update: requires an index inside the list. In the source an out-of-range index spreads `undefined` into an empty object, so it writes a partial record `{[field]: value}` at that index, leaving holes before it when the index is past the end. The form only offers existing rows.
- Testimonials.TestimonialEditor.Remove: requires an index inside the list. In the source an out-of-range index throws a TypeError on `testimonials[index].id`. The form only offers existing rows.
- FeatureLists.SetFeature and the two `UpdateFeature` methods: require an index inside the feature list. The form only offers existing lines.
- The clock (`Date.now()`, `new Date().toISOString()`) and `Math.random()` are parameters given as text.
- The confirmation dialog, toasts, navigation side effects other than the target path, `console` logging, clipboard copying and `window.open` are left out. The confirmation answer is a parameter.
- Floating point: prices are integers. `parseFloat` is abstracted as an optional integer read from the text. `toFixed(2)` on the pricing card and `formatFileSize` (`MediaLibrary.tsx:148-154`) are not modelled.
- `getFileUrl` (`MediaLibrary.tsx:133-138`) is not modelled. It only asks the storage client for a public URL.
- Text.Lower and the slug rules cover ASCII only. Non-ASCII case mapping in `toLowerCase` and the non-ASCII members of `\s` are not modelled.
- `data || []` on fetch: a successful fetch that returns null data is modelled as an empty list passed in, not as a separate case.
- The order of `Object.keys` and `Object.entries`: social links and business hours are maps, and badges are a set.
- The pages' `content` JSON, the blog articles' images and the pricing plans' feature lists are kept as opaque text or left out. No property depends on them.
- BlogListing.ShownPosts: a row's `excerpt` is a string, as the component's own `BlogPost` interface declares (`BlogList.tsx:16`). The table allows null (`src/integrations/supabase/types.ts:22`). With a search term typed, the source's filter throws on a null excerpt whose title does not match (`BlogList.tsx:66`). That throw is not modelled.
- BlogListing.BlogList.Refilter: works on the same non-null excerpts as `ShownPosts`, so the throw on a null excerpt is not modelled here either.
- BlogEditing.BlogEditor.AddTag: the post's `tags` is a list, as the editor's `BlogPost` interface declares (`BlogEditor.tsx:21`). The table allows null (`src/integrations/supabase/types.ts:31`). On a loaded post with null tags, `post.tags.includes` throws when a non-blank tag is added (`BlogEditor.tsx:171`). That throw is not modelled.
- ServicesManagement.ServicesManager.UpdateFeature: a null `features` throws at `[...editingService.features]` (`ServicesManager.tsx:135`); in the source these columns may be null (`src/integrations/supabase/types.ts:216`, `:282`, `:371`) and the components type them `any`; the model takes them as lists and maps, so the TypeError the source raises on a null value is not modelled.
- ServicesManagement.ServicesManager.AddFeature: a null `features` throws at the spread (`ServicesManager.tsx:144`); in the source these columns may be null (`src/integrations/supabase/types.ts:216`, `:282`, `:371`) and the components type them `any`; the model takes them as lists and maps, so the TypeError the source raises on a null value is not modelled.
- ServicesManagement.ServicesManager.RemoveFeatureAt: a null `features` throws at `.filter` (`ServicesManager.tsx:150`); in the source these columns may be null (`src/integrations/supabase/types.ts:216`, `:282`, `:371`) and the components type them `any`; the model takes them as lists and maps, so the TypeError the source raises on a null value is not modelled.
- PricingManagement.PricingManager.UpdateFeature: a null `features` throws at the spread (`PricingManager.tsx:129`); in the source these columns may be null (`src/integrations/supabase/types.ts:216`, `:282`, `:371`) and the components type them `any`; the model takes them as lists and maps, so the TypeError the source raises on a null value is not modelled.
- PricingManagement.PricingManager.AddFeature: a null `features` throws at the spread (`PricingManager.tsx:138`); in the source these columns may be null (`src/integrations/supabase/types.ts:216`, `:282`, `:371`) and the components type them `any`; the model takes them as lists and maps, so the TypeError the source raises on a null value is not modelled.
- PricingManagement.PricingManager.RemoveFeatureAt: a null `features` throws at `.filter` (`PricingManager.tsx:144`); in the source these columns may be null (`src/integrations/supabase/types.ts:216`, `:282`, `:371`) and the components type them `any`; the model takes them as lists and maps, so the TypeError the source raises on a null value is not modelled.
- AboutEditing.LinkFieldShowsTyped: a null `social_links` throws at `editingMember.social_links.linkedin` and the other link fields (`AboutEditor.tsx:253-280`); in the source these columns may be null (`src/integrations/supabase/types.ts:216`, `:282`, `:371`) and the components type them `any`; the model takes them as lists and maps, so the TypeError the source raises on a null value is not modelled.
- AboutEditing.Badges: a null `social_links` throws at `Object.keys(member.social_links)` (`AboutEditor.tsx:364`); in the source these columns may be null (`src/integrations/supabase/types.ts:216`, `:282`, `:371`) and the components type them `any`; the model takes them as lists and maps, so the TypeError the source raises on a null value is not modelled.
- AboutEditing.BadgeHasLink: rests on `Badges`, so the same throw on a null `social_links` (`AboutEditor.tsx:364-373`) is outside it; in the source these columns may be null (`src/integrations/supabase/types.ts:216`, `:282`, `:371`) and the components type them `any`; the model takes them as lists and maps, so the TypeError the source raises on a null value is not modelled.
- BlogEditing.Status: the status is one of three values, the ones the select offers. A stored row with another status string is not modelled. The list page's `BadgeVariant` does handle any string.
- Loading spinners and other rendering beyond the highlighted item, badges, prices and shown lists are not modelled.
- `src/App.tsx`, `Dashboard`, `Analytics`, `SiteSettings`, `HomepageEditor`, `Contact.tsx` and the static marketing pages are not part of this model. They hold no logic beyond rendering and a fetch.
- Media.FirstPage: the newest-first order of the listing is the storage service's. The model keeps whatever order it is given.

=== FILE: about_editor.dfy ===
/** The team members editor of the About page
    (src/pages/admin/AboutEditor.tsx): the list of members ordered by
    `sort_order` and one edit form, whose social-link fields keep a map from
    platform to URL with no blank entries. The backend's replies and the
    confirmation dialog are parameters. */
module AboutEditing {
  import opened Common
  import opened Text

  datatype TeamMember = TeamMember(
    id: string,
    name: string,
    role: string,
    bio: Option<string>,
    photoUrl: Option<string>,
    socialLinks: map<string, string>,
    isActive: bool,
    sortOrder: int)

  /** The form `addNewMember` opens for a list of `n` members: empty texts
      and id, no social links, active, placed last. */
  function NewMember(n: nat): (m: TeamMember)
    ensures m.id == "" && m.name == "" && m.role == ""
    ensures m.socialLinks == map[] && m.isActive && m.sortOrder == n
  {
    TeamMember("", "", "", Some(""), Some(""), map[], true, n)
  }

  /** `updateSocialLink(platform, url)` on the links map: a URL with some
      non-whitespace character is stored as typed (untrimmed); a blank one
      removes the platform. No other platform changes. */
  function UpdateSocialLink(links: map<string, string>, platform: string, url: string): (r: map<string, string>)
    ensures platform in r <==> exists i :: 0 <= i < |url| && !IsSpace(url[i])
    ensures platform in r ==> r[platform] == url
    ensures forall p :: p != platform ==> (p in r <==> p in links)
    ensures forall p :: p != platform && p in r ==> r[p] == links[p]
  {
    TrimEmptyIffBlank(url);
    if Trim(url) != "" then links[platform := url] else links - {platform}
  }

  /** The links of a member have no blank URL. */
  ghost predicate NoBlankLinks(links: map<string, string>)
  {
    forall p :: p in links ==> exists i :: 0 <= i < |links[p]| && !IsSpace(links[p][i])
  }

  /** Updating a link keeps the map free of blank URLs. */
  lemma UpdateKeepsNoBlankLinks(links: map<string, string>, platform: string, url: string)
    requires NoBlankLinks(links)
    ensures NoBlankLinks(UpdateSocialLink(links, platform, url))
  {
  }

  /** What a link field shows: `social_links[platform] || ''`. */
  function LinkField(links: map<string, string>, platform: string): string
  {
    if platform in links then links[platform] else ""
  }

  /** After typing into a link field the field shows what was typed, except
      that whitespace alone is dropped and the field shows nothing. */
  lemma LinkFieldShowsTyped(links: map<string, string>, platform: string, url: string)
    ensures LinkField(UpdateSocialLink(links, platform, url), platform) ==
            if Trim(url) == "" then "" else url
  {
    TrimEmptyIffBlank(url);
  }

  /** Typing a URL into a field that was empty and clearing it again gives
      back the links as they were. */
  lemma ClearUndoesSet(links: map<string, string>, platform: string, url: string)
    requires platform !in links
    ensures UpdateSocialLink(UpdateSocialLink(links, platform, url), platform, "") == links
  {
    TrimEmptyIffBlank("");
  }

  /** The badges of a member card: one per platform with a link. */
  function Badges(m: TeamMember): (r: set<string>)
    ensures forall p :: p in r <==> p in m.socialLinks
  {
    m.socialLinks.Keys
  }

  /** Typing into a link field adds that platform's badge when the URL has a
      non-whitespace character and removes it otherwise; the other badges
      stay. */
  lemma BadgesAfterUpdate(m: TeamMember, platform: string, url: string)
    ensures Badges(m.(socialLinks := UpdateSocialLink(m.socialLinks, platform, url))) ==
            if Trim(url) != "" then Badges(m) + {platform} else Badges(m) - {platform}
  {
    TrimEmptyIffBlank(url);
  }

  /** On a member without blank links, every badge has a link field that
      shows a non-empty URL. */
  lemma BadgeHasLink(m: TeamMember, platform: string)
    requires NoBlankLinks(m.socialLinks) && platform in Badges(m)
    ensures LinkField(m.socialLinks, platform) != ""
  {
  }

  class AboutEditor {
    var members: seq<TeamMember>
    var editing: Option<TeamMember>
    var isLoading: bool
    var isSaving: bool

    constructor ()
      ensures members == [] && editing.None? && isLoading && !isSaving
    {
      members := [];
      editing := None;
      isLoading := true;
      isSaving := false;
    }

    /** `fetchTeamMembers`: the rows ordered by `sort_order` replace the
        list; a failed fetch leaves it. */
    method Fetch(rows: Option<seq<TeamMember>>)
      modifies this`members, this`isLoading
      ensures members == if rows.Some? then rows.value else old(members)
      ensures !isLoading
    {
      if rows.Some? {
        members := rows.value;
      }
      isLoading := false;
    }

    /** `addNewMember`: a new member placed after the existing ones. */
    method AddNew()
      modifies this`editing
      ensures editing == Some(NewMember(|members|))
    {
      editing := Some(NewMember(|members|));
    }

    /** The edit button of a card. */
    method Edit(m: TeamMember)
      modifies this`editing
      ensures editing == Some(m)
    {
      editing := Some(m);
    }

    /** The cancel button. */
    method Cancel()
      modifies this`editing
      ensures editing.None?
    {
      editing := None;
    }

    /** Typing into a social-link field; nothing happens when no member is
        being edited. */
    method SetSocialLink(platform: string, url: string)
      modifies this`editing
      ensures editing == if old(editing).None? then None
                         else Some(old(editing).value.(socialLinks := UpdateSocialLink(old(editing).value.socialLinks, platform, url)))
    {
      if editing.None? {
        return;
      }
      editing := Some(editing.value.(socialLinks := UpdateSocialLink(editing.value.socialLinks, platform, url)));
    }

    /** `handleSave`: upserts the edited member. On success the list is
        reloaded (`refetched`, absent when the reload fails) and the form
        closes; on failure both stay. */
    method Save(succeeded: bool, refetched: Option<seq<TeamMember>>) returns (upserted: TeamMember)
      requires !isSaving && editing.Some?
      modifies this`members, this`editing, this`isSaving
      ensures upserted == old(editing).value
      ensures members == if succeeded && refetched.Some? then refetched.value else old(members)
      ensures editing == if succeeded then None else old(editing)
      ensures !isSaving
    {
      isSaving := true;
      upserted := editing.value;
      if succeeded {
        if refetched.Some? {
          members := refetched.value;
        }
        editing := None;
      }
      isSaving := false;
    }

    /** `handleDelete(id)`: after confirmation the row is deleted and, on
        success, the list reloaded. Returns the id of the delete sent. */
    method Delete(id: string, confirmed: bool, succeeded: bool, refetched: Option<seq<TeamMember>>)
      returns (deleted: Option<string>)
      modifies this`members
      ensures deleted == if confirmed then Some(id) else None
      ensures members == if confirmed && succeeded && refetched.Some? then refetched.value else old(members)
    {
      deleted := None;
      if confirmed {
        deleted := Some(id);
        if succeeded && refetched.Some? {
          members := refetched.value;
        }
      }
    }
  }
}

=== FILE: admin_layout.dfy ===
/** The admin panel's frame (src/components/admin/AdminLayout.tsx): the
    navigation items, which of them is highlighted for the current path, and
    the sidebar that opens and closes on small screens. */
module AdminLayoutModel {
  import opened Text

  /** The dashboard's path, highlighted only on an exact match. */
  const DashboardPath: string := "/admin"

  /** The targets of `adminNavItems`, in order. */
  const NavHrefs: seq<string> := [
    DashboardPath, "/admin/homepage", "/admin/pages", "/admin/features",
    "/admin/testimonials", "/admin/blog", "/admin/media"]

  /** `isActive(path)`: the dashboard on an exact match, every other item
      when the current path starts with its href, segment boundary or not. */
  predicate IsActive(pathname: string, href: string)
  {
    if href == DashboardPath then pathname == DashboardPath else StartsWith(pathname, href)
  }

  /** Two prefixes of one string: the shorter is a prefix of the longer. */
  lemma PrefixesNest(p: string, a: string, b: string)
    requires StartsWith(p, a) && StartsWith(p, b) && |a| <= |b|
    ensures StartsWith(b, a)
  {
    assert b[..|a|] == p[..|b|][..|a|];
  }

  /** No item's href is a prefix of another's, the dashboard aside. */
  lemma NoHrefPrefixesAnother()
    ensures forall i, j :: 1 <= i < |NavHrefs| && 1 <= j < |NavHrefs| && i != j ==>
              !StartsWith(NavHrefs[j], NavHrefs[i])
  {
    forall i, j | 1 <= i < |NavHrefs| && 1 <= j < |NavHrefs| && i != j
      ensures !StartsWith(NavHrefs[j], NavHrefs[i])
    {
      var a, b := NavHrefs[i], NavHrefs[j];
      if |a| <= |b| {
        // The two hrefs differ at their eighth character.
        assert a[7] != b[7];
        assert b[..|a|][7] == b[7];
      }
    }
  }

  /** For any path at most one navigation item is highlighted. */
  lemma AtMostOneActive(pathname: string, i: nat, j: nat)
    requires i < |NavHrefs| && j < |NavHrefs|
    requires IsActive(pathname, NavHrefs[i]) && IsActive(pathname, NavHrefs[j])
    ensures i == j
  {
    if i != j {
      if i != 0 && j != 0 {
        NoHrefPrefixesAnother();
        if |NavHrefs[i]| <= |NavHrefs[j]| {
          PrefixesNest(pathname, NavHrefs[i], NavHrefs[j]);
        } else {
          PrefixesNest(pathname, NavHrefs[j], NavHrefs[i]);
        }
      }
    }
  }

  /** The prefix test ignores segment boundaries: a path that merely begins
      with an item's href highlights that item. */
  lemma RawPrefixMatch()
    ensures IsActive("/admin/blogger", "/admin/blog")
    ensures IsActive("/admin/blog/42", "/admin/blog")
    ensures !IsActive("/admin/blog", DashboardPath)
  {
    assert "/admin/blogger"[..11] == "/admin/blog";
    assert "/admin/blog/42"[..11] == "/admin/blog";
  }

  /** The sidebar of small screens. */
  class Sidebar {
    var sidebarOpen: bool

    /** The sidebar starts closed. */
    constructor ()
      ensures !sidebarOpen
    {
      sidebarOpen := false;
    }

    /** The menu button of the top bar. */
    method Open()
      modifies this
      ensures sidebarOpen
    {
      sidebarOpen := true;
    }

    /** The overlay, the close button and every navigation link. */
    method Close()
      modifies this
      ensures !sidebarOpen
    {
      sidebarOpen := false;
    }
  }
}

=== FILE: blog_editor.dfy ===
/** The single-post blog editor (src/pages/admin/BlogEditor.tsx), reached as
    `/admin/blog/new` to create a post or `/admin/blog/:id` to edit one. The
    clock (`new Date()`), the confirmation dialog and the backend's replies
    are parameters. */
module BlogEditing {
  import opened Common
  import opened Text
  import opened Slugs

  datatype Status = Draft | Published | Archived

  datatype Post = Post(
    id: Option<string>,
    title: string,
    slug: string,
    excerpt: string,
    content: string,
    featuredImage: string,
    tags: seq<string>,
    status: Status,
    seoTitle: string,
    seoDescription: string,
    seoKeywords: string)

  /** The post a new editor starts from: every text empty, no tags, draft. */
  function EmptyPost(): (p: Post)
    ensures p.title == "" && p.content == "" && p.slug == "" && p.tags == [] && p.status == Draft
  {
    Post(None, "", "", "", "", "", [], Draft, "", "", "")
  }

  /** `Boolean(id && id !== 'new')`: the route names an existing post. */
  predicate IsEditing(routeId: Option<string>)
  {
    routeId.Some? && routeId.value != "" && routeId.value != "new"
  }

  /** The routes `new`, empty and absent create; every other id edits. */
  lemma NewRouteCreates()
    ensures !IsEditing(Some("new")) && !IsEditing(None) && !IsEditing(Some(""))
    ensures forall id :: id != "" && id != "new" ==> IsEditing(Some(id))
  {
  }

  /** `published_at`: the time of the save for a published post, `null`
      otherwise. */
  function PublishedAt(status: Status, now: string): (r: Option<string>)
    ensures r.Some? <==> status == Published
    ensures r.Some? ==> r.value == now
  {
    if status == Published then Some(now) else None
  }

  /** The row a save sends: the post plus its `published_at`. */
  datatype PostData = PostData(post: Post, publishedAt: Option<string>)

  datatype SaveRequest = UpdatePost(id: string, data: PostData) | InsertPost(data: PostData)

  /** The request `handleSave` sends: an update keyed by the route id when
      editing, an insert otherwise. */
  function RequestFor(post: Post, routeId: Option<string>, now: string): (r: SaveRequest)
    ensures r.data == PostData(post, PublishedAt(post.status, now))
    ensures r.UpdatePost? <==> IsEditing(routeId)
    ensures r.UpdatePost? ==> r.id == routeId.value
  {
    var data := PostData(post, PublishedAt(post.status, now));
    if IsEditing(routeId) then UpdatePost(routeId.value, data) else InsertPost(data)
  }

  /** What pressing Save did. */
  datatype SaveOutcome =
    | Rejected
    | Sent(request: SaveRequest, succeeded: bool, navigateTo: Option<string>)

  /** `addTag`: the trimmed input is appended when it is not blank and not
      already a tag; otherwise the tags stay as they are. */
  function AddTagTo(tags: seq<string>, input: string): (r: seq<string>)
    ensures |tags| <= |r| <= |tags| + 1 && r[..|tags|] == tags
    ensures |r| == |tags| + 1 <==> Trim(input) != "" && Trim(input) !in tags
    ensures |r| == |tags| + 1 ==> r[|tags|] == Trim(input)
    ensures NoDuplicates(tags) ==> NoDuplicates(r)
    ensures Trim(input) != "" ==> Trim(input) in r
  {
    var t := Trim(input);
    if t != "" && t !in tags then tags + [t] else tags
  }

  /** `removeTag`: every occurrence of the tag is dropped, the rest keep
      their order. */
  function RemoveTagFrom(tags: seq<string>, tag: string): (r: seq<string>)
    ensures |r| <= |tags|
    ensures forall i :: 0 <= i < |r| ==> r[i] != tag
    ensures IsSubsequence(r, tags)
  {
    Filter(tags, t => t != tag)
  }

  /** Removing keeps exactly the other tags. */
  lemma RemoveTagMembers(tags: seq<string>, tag: string, x: string)
    ensures x in RemoveTagFrom(tags, tag) <==> x in tags && x != tag
  {
    FilterMembers(tags, t => t != tag, x);
  }

  /** Removing a tag that has just been added gives back the tags as they
      were before. */
  lemma RemoveUndoesAdd(tags: seq<string>, input: string)
    requires Trim(input) !in tags
    ensures RemoveTagFrom(AddTagTo(tags, input), Trim(input)) == tags
  {
    var t := Trim(input);
    var keep := (x: string) => x != t;
    FilterKeepsAll(tags, keep);
    if t != "" {
      FilterConcat(tags, [t], keep);
    }
  }

  class BlogEditor {
    /** The `:id` route parameter, if any. */
    const routeId: Option<string>
    var post: Post
    var tagInput: string
    var isLoading: bool
    var isSaving: bool

    /** A fresh editor: the empty post, loading exactly when it edits an
        existing post. */
    constructor (routeId: Option<string>)
      ensures this.routeId == routeId
      ensures post == EmptyPost() && tagInput == ""
      ensures isLoading == IsEditing(routeId) && !isSaving
    {
      this.routeId := routeId;
      post := EmptyPost();
      tagInput := "";
      isLoading := IsEditing(routeId);
      isSaving := false;
    }

    /** `fetchPost`, run only when editing: the stored post replaces the
        form, a failed fetch leaves it; loading ends either way. */
    method Fetch(row: Option<Post>)
      requires IsEditing(routeId)
      modifies this`post, this`isLoading
      ensures post == if row.Some? then row.value else old(post)
      ensures !isLoading
    {
      if row.Some? {
        post := row.value;
      }
      isLoading := false;
    }

    /** Typing in the title field. While creating, a non-empty title also
        regenerates the slug with the blog rule; while editing, or when the
        title is cleared, the slug is left alone. */
    method SetTitle(title: string)
      modifies this`post
      ensures post == if title != "" && !IsEditing(routeId)
                      then old(post).(title := title, slug := BlogSlug(title))
                      else old(post).(title := title)
      ensures title != "" && !IsEditing(routeId) ==> IsBlogSlug(post.slug)
    {
      post := post.(title := title);
      if title != "" && !IsEditing(routeId) {
        post := post.(slug := BlogSlug(title));
      }
    }

    /** Typing in the slug field: the slug is taken as typed. */
    method SetSlug(slug: string)
      modifies this`post
      ensures post == old(post).(slug := slug)
    {
      post := post.(slug := slug);
    }

    /** Choosing a status in the select. */
    method SetStatus(status: Status)
      modifies this`post
      ensures post == old(post).(status := status)
    {
      post := post.(status := status);
    }

    /** `handleSave`. A post without title or content is rejected and nothing
        is sent. Otherwise `RequestFor` is sent; `succeeded` is the backend's
        answer and `insertedId` the id of an inserted row. A successful
        insert navigates to the new post's page; an update stays. */
    method Save(now: string, succeeded: bool, insertedId: string) returns (outcome: SaveOutcome)
      requires !isSaving
      modifies this`isSaving
      ensures outcome.Rejected? <==> post.title == "" || post.content == ""
      ensures outcome.Sent? ==> outcome.request == RequestFor(post, routeId, now)
      ensures outcome.Sent? ==> outcome.succeeded == succeeded
      ensures outcome.Sent? ==>
                outcome.navigateTo == if succeeded && !IsEditing(routeId) then Some("/admin/blog/" + insertedId) else None
      ensures !isSaving
    {
      if post.title == "" || post.content == "" {
        return Rejected;
      }
      isSaving := true;
      var request := RequestFor(post, routeId, now);
      var navigateTo := None;
      if succeeded && !IsEditing(routeId) {
        navigateTo := Some("/admin/blog/" + insertedId);
      }
      outcome := Sent(request, succeeded, navigateTo);
      isSaving := false;
    }

    /** `handleDelete`: only an existing post, and only after confirmation,
        is deleted (by its route id); a successful delete goes back to the
        list. */
    method Delete(confirmed: bool, succeeded: bool) returns (deleted: Option<string>, navigateTo: Option<string>)
      ensures deleted == if IsEditing(routeId) && confirmed then Some(routeId.value) else None
      ensures navigateTo == if deleted.Some? && succeeded then Some("/admin/blog") else None
    {
      if !IsEditing(routeId) || !confirmed {
        return None, None;
      }
      deleted := Some(routeId.value);
      navigateTo := if succeeded then Some("/admin/blog") else None;
    }

    /** Typing in the tag field. */
    method SetTagInput(input: string)
      modifies this`tagInput
      ensures tagInput == input
    {
      tagInput := input;
    }

    /** `addTag`: a new tag is appended and the field cleared; a blank or
        repeated tag changes nothing. */
    method AddTag()
      modifies this`post, this`tagInput
      ensures post == old(post).(tags := AddTagTo(old(post).tags, old(tagInput)))
      ensures tagInput == if post.tags != old(post).tags then "" else old(tagInput)
    {
      var t := Trim(tagInput);
      if t != "" && t !in post.tags {
        post := post.(tags := post.tags + [t]);
        tagInput := "";
      }
    }

    /** `removeTag`. */
    method RemoveTag(tag: string)
      modifies this`post
      ensures post == old(post).(tags := RemoveTagFrom(old(post).tags, tag))
    {
      post := post.(tags := RemoveTagFrom(post.tags, tag));
    }
  }
}

=== FILE: blog_list.dfy ===
/** The admin list of blog posts (src/pages/admin/BlogList.tsx): all posts,
    newest update first, narrowed by a search term and a status filter, with
    delete. The backend's replies and the confirmation dialog are
    parameters. */
module BlogListing {
  import opened Common
  import opened Text

  /** A row of the list; `status` is whatever text the row holds. */
  datatype PostRow = PostRow(
    id: string,
    title: string,
    slug: string,
    excerpt: string,
    status: string,
    createdAt: string,
    updatedAt: string,
    publishedAt: Option<string>)

  /** The status filter that shows every status. */
  const AllStatuses: string := "all"

  /** The search term matches a post when its lower-cased title or excerpt
      contains the lower-cased term. */
  predicate MatchesTerm(p: PostRow, term: string)
  {
    Includes(Lower(p.title), Lower(term)) || Includes(Lower(p.excerpt), Lower(term))
  }

  /** The status filter lets a post through. */
  predicate MatchesStatus(p: PostRow, status: string)
  {
    status == AllStatuses || p.status == status
  }

  /** The posts the list shows: in their order, those that match both the
      term and the status filter. */
  function ShownPosts(posts: seq<PostRow>, term: string, status: string): (r: seq<PostRow>)
    ensures |r| <= |posts|
    ensures forall i :: 0 <= i < |r| ==> MatchesTerm(r[i], term) && MatchesStatus(r[i], status)
    ensures IsSubsequence(r, posts)
  {
    Filter(posts, p => MatchesTerm(p, term) && MatchesStatus(p, status))
  }

  /** A post is shown exactly when it is in the list and matches both. */
  lemma ShownPostsMembers(posts: seq<PostRow>, term: string, status: string, p: PostRow)
    ensures p in ShownPosts(posts, term, status) <==>
            p in posts && MatchesTerm(p, term) && MatchesStatus(p, status)
  {
    FilterMembers(posts, q => MatchesTerm(q, term) && MatchesStatus(q, status), p);
  }

  /** With an empty term and the status filter on "all" every post is
      shown. */
  lemma NoFilterShowsAll(posts: seq<PostRow>)
    ensures ShownPosts(posts, "", AllStatuses) == posts
  {
    forall p: PostRow ensures MatchesTerm(p, "") {
      IncludesEmpty(Lower(p.title));
    }
    FilterKeepsAll(posts, p => MatchesTerm(p, "") && MatchesStatus(p, AllStatuses));
  }

  /** `posts.filter(post => post.id !== id)`: the list without the rows
      with that id, the others in their order. */
  function WithoutId(posts: seq<PostRow>, id: string): (r: seq<PostRow>)
    ensures forall i :: 0 <= i < |r| ==> r[i].id != id
    ensures IsSubsequence(r, posts)
  {
    Filter(posts, (p: PostRow) => p.id != id)
  }

  /** A row stays exactly when its id is another one. */
  lemma WithoutIdMembers(posts: seq<PostRow>, id: string, p: PostRow)
    ensures p in WithoutId(posts, id) <==> p in posts && p.id != id
  {
    FilterMembers(posts, (q: PostRow) => q.id != id, p);
  }

  /** The badge variants. */
  datatype Variant = Default | Secondary | Outline

  /** `getStatusBadgeVariant`: published posts get the default badge,
      archived ones the outline badge, drafts and any other status the
      secondary badge. */
  function BadgeVariant(status: string): (v: Variant)
    ensures v == Default <==> status == "published"
    ensures v == Outline <==> status == "archived"
    ensures v == Secondary <==> status != "published" && status != "archived"
  {
    match status
    case "published" => Default
    case "draft" => Secondary
    case "archived" => Outline
    case _ => Secondary
  }

  class BlogList {
    var posts: seq<PostRow>
    var filtered: seq<PostRow>
    var isLoading: bool
    var searchTerm: string
    var statusFilter: string

    /** The list before its first fetch. */
    constructor ()
      ensures posts == [] && filtered == [] && isLoading
      ensures searchTerm == "" && statusFilter == AllStatuses
      ensures Valid()
    {
      posts := [];
      filtered := [];
      isLoading := true;
      searchTerm := "";
      statusFilter := AllStatuses;
    }

    /** The list is consistent: what it shows is `ShownPosts` of its
        state. */
    predicate Valid()
      reads this
    {
      filtered == ShownPosts(posts, searchTerm, statusFilter)
    }

    /** `filterPosts`: narrows by the term, when there is one, then by the
        status, unless it is "all". */
    method Refilter()
      modifies this`filtered
      ensures Valid()
    {
      var term, status := searchTerm, statusFilter;
      var byTerm := (p: PostRow) => MatchesTerm(p, term);
      var byStatus := (p: PostRow) => MatchesStatus(p, status);
      var result := posts;
      if term != "" {
        result := Filter(result, byTerm);
      } else {
        forall p: PostRow ensures byTerm(p) {
          IncludesEmpty(Lower(p.title));
        }
        FilterKeepsAll(posts, byTerm);
      }
      if status != AllStatuses {
        FilterSameCondition(result, (p: PostRow) => p.status == status, byStatus);
        result := Filter(result, (p: PostRow) => p.status == status);
      } else {
        FilterKeepsAll(result, byStatus);
      }
      FilterThenFilter(posts, byTerm, byStatus, p => MatchesTerm(p, term) && MatchesStatus(p, status));
      filtered := result;
    }

    /** `fetchPosts`: the rows, newest update first, replace the list; a
        failed fetch leaves it. The shown list follows. */
    method Fetch(rows: Option<seq<PostRow>>)
      modifies this`posts, this`filtered, this`isLoading
      ensures posts == if rows.Some? then rows.value else old(posts)
      ensures !isLoading && Valid()
    {
      if rows.Some? {
        posts := rows.value;
      }
      isLoading := false;
      Refilter();
    }

    /** Typing in the search box. */
    method SetSearchTerm(term: string)
      modifies this`searchTerm, this`filtered
      ensures searchTerm == term && Valid()
    {
      searchTerm := term;
      Refilter();
    }

    /** Choosing in the status select. */
    method SetStatusFilter(status: string)
      modifies this`statusFilter, this`filtered
      ensures statusFilter == status && Valid()
    {
      statusFilter := status;
      Refilter();
    }

    /** `handleDelete(id, title)`: after confirmation the post is deleted
        and, on success, every row with that id leaves the list without a
        reload. Returns the id of the delete sent. */
    method Delete(id: string, confirmed: bool, succeeded: bool) returns (deleted: Option<string>)
      requires Valid()
      modifies this`posts, this`filtered
      ensures deleted == if confirmed then Some(id) else None
      ensures posts == if confirmed && succeeded then WithoutId(old(posts), id) else old(posts)
      ensures Valid()
    {
      deleted := None;
      if confirmed {
        deleted := Some(id);
        if succeeded {
          posts := WithoutId(posts, id);
          Refilter();
        }
      }
    }
  }

  /** After a successful delete no shown row has the deleted id. */
  lemma DeletedPostNotShown(posts: seq<PostRow>, id: string, term: string, status: string)
    ensures forall i :: 0 <= i < |ShownPosts(WithoutId(posts, id), term, status)| ==>
              ShownPosts(WithoutId(posts, id), term, status)[i].id != id
  {
    FilterStaysInClass(WithoutId(posts, id), p => MatchesTerm(p, term) && MatchesStatus(p, status),
                       (p: PostRow) => p.id != id);
  }
}

=== FILE: common.dfy ===
/** Small vocabulary shared by every editor of the admin panel: optional
    values, the behaviour of JavaScript's `Array.prototype.filter`, and
    removal of one position from a list. */
module Common {

  datatype Option<+T> = None | Some(value: T)

  /** `r` can be obtained from `s` by deleting elements, keeping the order of
      the rest. */
  ghost predicate IsSubsequence<T>(r: seq<T>, s: seq<T>)
    decreases |s|
  {
    if r == [] then true
    else if s == [] then false
    else (r[0] == s[0] && IsSubsequence(r[1..], s[1..])) || IsSubsequence(r, s[1..])
  }

  /** `s.filter(keep)`: the elements of `s` that satisfy `keep`, in order. */
  function Filter<T(==)>(s: seq<T>, keep: T -> bool): (r: seq<T>)
    ensures |r| <= |s|
    ensures forall i :: 0 <= i < |r| ==> keep(r[i])
    ensures IsSubsequence(r, s)
    decreases |s|
  {
    if s == [] then []
    else if keep(s[0]) then [s[0]] + Filter(s[1..], keep)
    else Filter(s[1..], keep)
  }

  /** An element is in the filtered list exactly when it is in the list and
      satisfies the condition. */
  lemma {:induction false} FilterMembers<T>(s: seq<T>, keep: T -> bool, x: T)
    ensures x in Filter(s, keep) <==> x in s && keep(x)
    decreases |s|
  {
    if s != [] {
      FilterMembers(s[1..], keep, x);
      assert x in s <==> x == s[0] || x in s[1..];
    }
  }

  /** Every element of the filtered list belongs to any class that holds
      every element of the list. */
  lemma {:induction false} FilterStaysInClass<T>(s: seq<T>, keep: T -> bool, cls: T -> bool)
    requires forall i :: 0 <= i < |s| ==> cls(s[i])
    ensures forall i :: 0 <= i < |Filter(s, keep)| ==> cls(Filter(s, keep)[i])
    decreases |s|
  {
    if s != [] {
      FilterStaysInClass(s[1..], keep, cls);
    }
  }

  /** A filter that keeps everything returns its input unchanged. */
  lemma {:induction false} FilterKeepsAll<T>(s: seq<T>, keep: T -> bool)
    requires forall i :: 0 <= i < |s| ==> keep(s[i])
    ensures Filter(s, keep) == s
    decreases |s|
  {
    if s != [] {
      FilterKeepsAll(s[1..], keep);
    }
  }

  /** Filters by two conditions that agree everywhere agree. */
  lemma {:induction false} FilterSameCondition<T>(s: seq<T>, p: T -> bool, q: T -> bool)
    requires forall x :: p(x) == q(x)
    ensures Filter(s, p) == Filter(s, q)
    decreases |s|
  {
    if s != [] {
      FilterSameCondition(s[1..], p, q);
    }
  }

  /** Filtering a concatenation filters each part. */
  lemma {:induction false} FilterConcat<T>(a: seq<T>, b: seq<T>, keep: T -> bool)
    ensures Filter(a + b, keep) == Filter(a, keep) + Filter(b, keep)
    decreases |a|
  {
    if a == [] {
      assert a + b == b;
    } else {
      FilterConcat(a[1..], b, keep);
      assert (a + b)[0] == a[0];
      assert (a + b)[1..] == a[1..] + b;
    }
  }

  /** Two filters applied one after the other are one filter by the
      conjunction of their conditions. */
  lemma {:induction false} FilterThenFilter<T>(s: seq<T>, p: T -> bool, q: T -> bool, both: T -> bool)
    requires forall x :: both(x) == (p(x) && q(x))
    ensures Filter(Filter(s, p), q) == Filter(s, both)
    decreases |s|
  {
    if s != [] {
      FilterThenFilter(s[1..], p, q, both);
    }
  }

  /** `s.filter((_, i) => i !== index)`: the list without position `index`;
      an index past the end removes nothing. */
  function RemoveAt<T>(s: seq<T>, index: nat): (r: seq<T>)
    ensures index < |s| ==> |r| == |s| - 1
    ensures index >= |s| ==> r == s
    ensures forall k :: 0 <= k < index && k < |r| ==> r[k] == s[k]
    ensures forall k :: index <= k < |r| ==> r[k] == s[k + 1]
  {
    if index < |s| then s[..index] + s[index + 1..] else s
  }

  /** No element occurs twice. */
  predicate NoDuplicates<T(==)>(s: seq<T>)
  {
    forall i, j :: 0 <= i < j < |s| ==> s[i] != s[j]
  }

  /** The list 0, 1, ..., n - 1. */
  function Range(n: nat): (r: seq<int>)
    ensures |r| == n
    ensures forall i :: 0 <= i < n ==> r[i] == i
  {
    seq(n, i => i)
  }
}

=== FILE: contact_editor.dfy ===
/** The contact settings editor (src/pages/admin/ContactEditor.tsx): one
    settings row with address, phone, email, map embed and the opening hours
    per day. A missing row is not an error; missing hours fall back to the
    default week. The backend's replies are parameters. */
module ContactEditing {
  import opened Common

  datatype Settings = Settings(
    id: string,
    address: Option<string>,
    phone: Option<string>,
    email: Option<string>,
    mapEmbed: Option<string>,
    businessHours: map<string, string>)

  /** A stored row, whose `business_hours` may be null. */
  datatype StoredSettings = StoredSettings(
    id: string,
    address: Option<string>,
    phone: Option<string>,
    email: Option<string>,
    mapEmbed: Option<string>,
    businessHours: Option<map<string, string>>)

  const Weekdays: seq<string> := ["monday", "tuesday", "wednesday", "thursday", "friday"]
  const WeekendDays: seq<string> := ["saturday", "sunday"]

  /** `defaultBusinessHours`: 9:00 AM - 6:00 PM on weekdays, closed at the
      weekend. */
  function DefaultBusinessHours(): (h: map<string, string>)
    ensures h.Keys == set d | d in Weekdays + WeekendDays
    ensures forall d :: d in Weekdays ==> h[d] == "9:00 AM - 6:00 PM"
    ensures forall d :: d in WeekendDays ==> h[d] == "Closed"
  {
    map[
      "monday" := "9:00 AM - 6:00 PM",
      "tuesday" := "9:00 AM - 6:00 PM",
      "wednesday" := "9:00 AM - 6:00 PM",
      "thursday" := "9:00 AM - 6:00 PM",
      "friday" := "9:00 AM - 6:00 PM",
      "saturday" := "Closed",
      "sunday" := "Closed"]
  }

  /** The settings the editor shows before anything is loaded. */
  function InitialSettings(): (s: Settings)
    ensures s.id == "" && s.businessHours == DefaultBusinessHours()
  {
    Settings("", Some(""), Some(""), Some(""), Some(""), DefaultBusinessHours())
  }

  /** The code PostgREST gives a `.single()` query that found no row. */
  const NoRowCode: string := "PGRST116"

  /** What the fetch returned: the row, if any, and the error code, if any. */
  datatype FetchReply = FetchReply(data: Option<StoredSettings>, errorCode: Option<string>)

  /** The fetch failed: an error other than "no row". */
  predicate FetchFailed(reply: FetchReply)
  {
    reply.errorCode.Some? && reply.errorCode.value != NoRowCode
  }

  /** A stored row as the form shows it: `{ ...data, business_hours:
      data.business_hours || defaultBusinessHours }`. */
  function FromStored(row: StoredSettings): (s: Settings)
    ensures s.businessHours == if row.businessHours.Some? then row.businessHours.value else DefaultBusinessHours()
    ensures s.id == row.id && s.address == row.address && s.phone == row.phone
    ensures s.email == row.email && s.mapEmbed == row.mapEmbed
  {
    var hours := if row.businessHours.Some? then row.businessHours.value else DefaultBusinessHours();
    Settings(row.id, row.address, row.phone, row.email, row.mapEmbed, hours)
  }

  /** The stored form of the settings a save upserts. */
  function ToStored(s: Settings): StoredSettings
  {
    StoredSettings(s.id, s.address, s.phone, s.email, s.mapEmbed, Some(s.businessHours))
  }

  /** Loading what was saved gives back the settings that were saved. */
  lemma FromStoredToStored(s: Settings)
    ensures FromStored(ToStored(s)) == s
  {
  }

  /** `updateBusinessHour(day, hours)`: that day's hours change, every other
      day keeps its hours. */
  function UpdateBusinessHour(hours: map<string, string>, day: string, text: string): (r: map<string, string>)
    ensures r.Keys == hours.Keys + {day}
    ensures r[day] == text
    ensures forall d :: d in hours && d != day ==> r[d] == hours[d]
  {
    hours[day := text]
  }

  /** Editing a day the form lists does not add or remove a day. */
  lemma UpdateKeepsDays(hours: map<string, string>, day: string, text: string)
    requires day in hours
    ensures UpdateBusinessHour(hours, day, text).Keys == hours.Keys
  {
  }

  class ContactEditor {
    var settings: Settings
    var isLoading: bool
    var isSaving: bool

    constructor ()
      ensures settings == InitialSettings() && isLoading && !isSaving
    {
      settings := InitialSettings();
      isLoading := true;
      isSaving := false;
    }

    /** `fetchContactSettings`. A failure leaves the form as it was and is
        reported; "no row" is not a failure. A returned row replaces the
        form, its null hours replaced by the default week. */
    method Fetch(reply: FetchReply) returns (failed: bool)
      modifies this`settings, this`isLoading
      ensures failed <==> FetchFailed(reply)
      ensures settings == if !failed && reply.data.Some? then FromStored(reply.data.value) else old(settings)
      ensures !isLoading
    {
      failed := FetchFailed(reply);
      if !failed && reply.data.Some? {
        settings := FromStored(reply.data.value);
      }
      isLoading := false;
    }

    /** Typing into a day's hours. */
    method SetBusinessHour(day: string, text: string)
      modifies this`settings
      ensures settings == old(settings).(businessHours := UpdateBusinessHour(old(settings).businessHours, day, text))
    {
      settings := settings.(businessHours := UpdateBusinessHour(settings.businessHours, day, text));
    }

    /** `handleSave`: upserts the settings; a successful save refetches
        them (`refetch`). Returns the row sent. */
    method Save(succeeded: bool, refetch: FetchReply) returns (upserted: StoredSettings)
      requires !isSaving
      modifies this`settings, this`isSaving, this`isLoading
      ensures upserted == ToStored(old(settings))
      ensures settings == if succeeded && !FetchFailed(refetch) && refetch.data.Some?
                          then FromStored(refetch.data.value) else old(settings)
      ensures isLoading == (old(isLoading) && !succeeded)
      ensures !isSaving
    {
      isSaving := true;
      upserted := ToStored(settings);
      if succeeded {
        var _ := Fetch(refetch);
      }
      isSaving := false;
    }
  }

  /** A site without a settings row opens the editor on the default week,
      with no error. */
  method FirstVisit()
  {
    var editor := new ContactEditor();
    var failed := editor.Fetch(FetchReply(None, Some(NoRowCode)));
    assert !failed;
    assert editor.settings.businessHours["saturday"] == "Closed";
  }
}

=== FILE: faq_section.dfy ===
/** The FAQ accordion of the home page (src/components/FAQSection.tsx): five
    questions, of which at most one shows its answer; clicking a question
    opens it and closes the others, or closes it when it was open. */
module Faq {
  import opened Common

  /** The number of questions. */
  const QuestionCount: nat := 5

  /** Item `i` shows its answer: `openFAQ === index`. */
  predicate IsOpen(openFaq: Option<nat>, i: nat)
  {
    openFaq == Some(i)
  }

  /** `setOpenFAQ(openFAQ === index ? null : index)`: the state after a
      click on item `i`. */
  function Toggle(openFaq: Option<nat>, i: nat): (r: Option<nat>)
    ensures IsOpen(openFaq, i) ==> r.None?
    ensures !IsOpen(openFaq, i) ==> IsOpen(r, i)
    ensures forall j :: j != i ==> !IsOpen(r, j)
  {
    if openFaq == Some(i) then None else Some(i)
  }

  /** Clicking an item twice gives back the earlier state exactly when no
      other item was open before. */
  lemma ToggleTwiceRestoresIff(openFaq: Option<nat>, i: nat)
    ensures Toggle(Toggle(openFaq, i), i) == openFaq <==> openFaq.None? || openFaq == Some(i)
  {
  }

  /** With item 0 open, two clicks on item 1 close everything rather than
      reopen item 0. */
  lemma ToggleTwiceForgetsOtherItem()
    ensures Toggle(Toggle(Some(0), 1), 1) == None
  {
  }

  class FaqSection {
    var openFaq: Option<nat>

    /** The open item, if any, is one of the questions. */
    predicate Valid()
      reads this
    {
      openFaq.Some? ==> openFaq.value < QuestionCount
    }

    /** The first question starts open. */
    constructor ()
      ensures Valid() && IsOpen(openFaq, 0)
    {
      openFaq := Some(0);
    }

    /** A click on question `i`. */
    method Click(i: nat)
      requires Valid() && i < QuestionCount
      modifies this
      ensures Valid()
      ensures openFaq == Toggle(old(openFaq), i)
    {
      openFaq := if openFaq == Some(i) then None else Some(i);
    }

    /** How many questions show their answer: never more than one. */
    function OpenCount(): (n: nat)
      reads this
      requires Valid()
      ensures n <= 1
      ensures n == 1 <==> exists i :: 0 <= i < QuestionCount && IsOpen(openFaq, i)
    {
      if openFaq.Some? then
        assert IsOpen(openFaq, openFaq.value);
        1
      else 0
    }
  }
}

=== FILE: features.dfy ===
/** The editable list of feature lines that both the services manager
    (src/pages/admin/ServicesManager.tsx:133-152) and the pricing manager
    (src/pages/admin/PricingManager.tsx:127-146) keep on the record being
    edited: change one line, append a blank line, remove one line. */
module FeatureLists {
  import opened Common

  /** `newFeatures[index] = value` on a copy: line `index` becomes `v`, the
      others stay. */
  function SetFeature(features: seq<string>, index: nat, v: string): (r: seq<string>)
    requires index < |features|
    ensures |r| == |features| && r[index] == v
    ensures forall k :: 0 <= k < |r| && k != index ==> r[k] == features[k]
  {
    features[index := v]
  }

  /** Setting a line back to what it was undoes the change. */
  lemma SetFeatureUndo(features: seq<string>, index: nat, v: string)
    requires index < |features|
    ensures SetFeature(SetFeature(features, index, v), index, features[index]) == features
  {
  }

  /** `[...features, '']`: one blank line appended. */
  function AddBlankFeature(features: seq<string>): (r: seq<string>)
    ensures |r| == |features| + 1 && r[..|features|] == features && r[|features|] == ""
  {
    features + [""]
  }

  /** `features.filter((_, i) => i !== index)`. */
  function RemoveFeature(features: seq<string>, index: nat): (r: seq<string>)
    ensures index < |features| ==> |r| == |features| - 1
    ensures index >= |features| ==> r == features
    ensures forall k :: 0 <= k < index && k < |r| ==> r[k] == features[k]
    ensures forall k :: index <= k < |r| ==> r[k] == features[k + 1]
    ensures index < |features| ==> multiset(r) + multiset{features[index]} == multiset(features)
  {
    assert index < |features| ==> features == features[..index] + [features[index]] + features[index + 1..];
    RemoveAt(features, index)
  }

  /** Removing the line just added gives back the list as it was. */
  lemma RemoveUndoesAddFeature(features: seq<string>)
    ensures RemoveFeature(AddBlankFeature(features), |features|) == features
  {
    var added := AddBlankFeature(features);
    assert RemoveAt(added, |features|) == added[..|features|];
  }
}

=== FILE: media_library.dfy ===
/** The media library (src/pages/admin/MediaLibrary.tsx): a searchable list
    of the files in the upload bucket, upload with size and type checks, and
    delete. The clock, the random part of stored names, the confirmation
    dialog and the storage service's replies are parameters. */
module Media {
  import opened Common
  import opened Text

  /** A file of the bucket listing. */
  datatype MediaFile = MediaFile(name: string, id: string, updatedAt: string)

  /** A file picked in the upload input; `size` in bytes. */
  datatype UploadFile = UploadFile(name: string, size: nat, mimeType: string)

  /** The largest upload accepted: 5 MiB. */
  const MaxUploadBytes: nat := 5 * 1024 * 1024

  /** The most files one listing returns. */
  const ListLimit: nat := 100

  /** The types accepted: any image, any video, and PDF. */
  predicate AllowedType(mimeType: string)
  {
    StartsWith(mimeType, "image/") || StartsWith(mimeType, "video/") || mimeType == "application/pdf"
  }

  datatype UploadCheck = NoFile | TooLarge | BadType | Accepted

  /** The checks `handleFileUpload` makes before uploading, in their order:
      a file must be chosen, must not exceed the size limit, and must have an
      allowed type. */
  function CheckUpload(file: Option<UploadFile>): (r: UploadCheck)
    ensures r == NoFile <==> file.None?
    ensures r == TooLarge <==> file.Some? && file.value.size > MaxUploadBytes
    ensures r == BadType <==> file.Some? && file.value.size <= MaxUploadBytes && !AllowedType(file.value.mimeType)
    ensures r == Accepted <==> file.Some? && file.value.size <= MaxUploadBytes && AllowedType(file.value.mimeType)
  {
    if file.None? then NoFile
    else if file.value.size > MaxUploadBytes then TooLarge
    else if !AllowedType(file.value.mimeType) then BadType
    else Accepted
  }

  /** The limit is inclusive, and the size is checked before the type. */
  lemma UploadCheckExamples()
    ensures CheckUpload(Some(UploadFile("report.pdf", 5242880, "application/pdf"))) == Accepted
    ensures CheckUpload(Some(UploadFile("report.pdf", 5242881, "application/pdf"))) == TooLarge
    ensures CheckUpload(Some(UploadFile("notes.txt", 5242881, "text/plain"))) == TooLarge
    ensures CheckUpload(Some(UploadFile("notes.txt", 10, "text/plain"))) == BadType
    ensures CheckUpload(Some(UploadFile("logo.png", 10, "image/png"))) == Accepted
  {
    assert !StartsWith("text/plain", "image/") by {
      assert "text/plain"[..6][0] != "image/"[0];
    }
    assert !StartsWith("text/plain", "video/") by {
      assert "text/plain"[..6][0] != "video/"[0];
    }
    assert StartsWith("image/png", "image/") by {
      assert "image/png"[..6] == "image/";
    }
  }

  /** `file.name.split('.').pop()`: the text after the last dot, or the
      whole name when it has none. */
  function Extension(name: string): (ext: string)
    ensures '.' !in ext
    ensures ext == name <==> '.' !in name
    ensures exists k :: SuffixAfterSep(name, '.', k, ext)
  {
    SplitLastStartsAfterSep(name, '.');
    LastPieceWholeIff(name, '.');
    LastPiece(name, '.')
  }

  /** The name a file is stored under: `${Date.now()}-${random}.${ext}`,
      with the clock reading and the random text as parameters. */
  function StoredName(stamp: string, random: string, name: string): (r: string)
    ensures |r| > |Extension(name)|
    ensures r[|r| - |Extension(name)| - 1..] == "." + Extension(name)
  {
    stamp + "-" + random + "." + Extension(name)
  }

  /** The stored name keeps the original file's extension. */
  lemma StoredNameKeepsExtension(stamp: string, random: string, name: string)
    ensures Extension(StoredName(stamp, random, name)) == Extension(name)
  {
    var ext := Extension(name);
    assert StoredName(stamp, random, name) == (stamp + "-" + random) + ['.'] + ext;
    LastPieceAfterSep(stamp + "-" + random, '.', ext);
  }

  /** The search matches a file when its lower-cased name contains the
      lower-cased term. */
  predicate NameMatches(f: MediaFile, term: string)
  {
    Includes(Lower(f.name), Lower(term))
  }

  /** `filteredFiles`: the matching files, in order. */
  function FilteredFiles(files: seq<MediaFile>, term: string): (r: seq<MediaFile>)
    ensures |r| <= |files|
    ensures forall i :: 0 <= i < |r| ==> NameMatches(r[i], term)
    ensures IsSubsequence(r, files)
  {
    Filter(files, f => NameMatches(f, term))
  }

  /** A file is listed exactly when its name matches. */
  lemma FilteredFilesMembers(files: seq<MediaFile>, term: string, f: MediaFile)
    ensures f in FilteredFiles(files, term) <==> f in files && NameMatches(f, term)
  {
    FilterMembers(files, g => NameMatches(g, term), f);
  }

  /** The clear-search button brings every file back. */
  lemma EmptyTermListsAll(files: seq<MediaFile>)
    ensures FilteredFiles(files, "") == files
  {
    forall f: MediaFile ensures NameMatches(f, "") {
      IncludesEmpty(Lower(f.name));
    }
    FilterKeepsAll(files, f => NameMatches(f, ""));
  }

  /** One page of the bucket listing: at most `ListLimit` files, newest
      first as the storage service returns them. */
  function FirstPage(stored: seq<MediaFile>): (r: seq<MediaFile>)
    ensures |r| <= ListLimit
    ensures |r| <= |stored| && r == stored[..|r|]
    ensures |stored| <= ListLimit ==> r == stored
  {
    if |stored| <= ListLimit then stored else stored[..ListLimit]
  }

  class MediaLibrary {
    var files: seq<MediaFile>
    var isLoading: bool
    var isUploading: bool
    var searchTerm: string

    constructor ()
      ensures files == [] && isLoading && !isUploading && searchTerm == ""
    {
      files := [];
      isLoading := true;
      isUploading := false;
      searchTerm := "";
    }

    /** `fetchFiles`: the first page of the bucket (`stored`, absent when
        the listing fails) replaces the list. */
    method Fetch(stored: Option<seq<MediaFile>>)
      modifies this`files, this`isLoading
      ensures files == if stored.Some? then FirstPage(stored.value) else old(files)
      ensures |old(files)| <= ListLimit ==> |files| <= ListLimit
      ensures !isLoading
    {
      if stored.Some? {
        files := FirstPage(stored.value);
      }
      isLoading := false;
    }

    /** `handleFileUpload` (the input is disabled while an upload runs).
        Only an accepted file is uploaded, under `StoredName`; a successful
        upload reloads the list (`stored`, absent when that fails). */
    method Upload(file: Option<UploadFile>, stamp: string, random: string, succeeded: bool,
                  stored: Option<seq<MediaFile>>)
      returns (check: UploadCheck, uploadedAs: Option<string>)
      requires !isUploading
      modifies this`files, this`isUploading, this`isLoading
      ensures check == CheckUpload(file)
      ensures uploadedAs == if check == Accepted then Some(StoredName(stamp, random, file.value.name)) else None
      ensures files == if check == Accepted && succeeded && stored.Some? then FirstPage(stored.value) else old(files)
      ensures isLoading == (old(isLoading) && !(check == Accepted && succeeded))
      ensures !isUploading
    {
      check := CheckUpload(file);
      if check != Accepted {
        return check, None;
      }
      isUploading := true;
      uploadedAs := Some(StoredName(stamp, random, file.value.name));
      if succeeded {
        Fetch(stored);
      }
      isUploading := false;
    }

    /** `handleDeleteFile(name)`: only after confirmation is the file
        removed; a successful removal reloads the list. Returns the name
        removed, if any. */
    method Delete(name: string, confirmed: bool, succeeded: bool, stored: Option<seq<MediaFile>>)
      returns (removed: Option<string>)
      modifies this`files, this`isLoading
      ensures removed == if confirmed then Some(name) else None
      ensures files == if confirmed && succeeded && stored.Some? then FirstPage(stored.value) else old(files)
      ensures isLoading == (old(isLoading) && !(confirmed && succeeded))
    {
      removed := None;
      if confirmed {
        removed := Some(name);
        if succeeded {
          Fetch(stored);
        }
      }
    }

    method SetSearchTerm(term: string)
      modifies this`searchTerm
      ensures searchTerm == term
    {
      searchTerm := term;
    }

    /** The files the grid shows. */
    function Shown(): seq<MediaFile>
      reads this
    {
      FilteredFiles(files, searchTerm)
    }
  }
}

=== FILE: pages_manager.dfy ===
/** The CMS pages manager (src/pages/admin/PagesManager.tsx): a searchable
    list of pages ordered by title and one edit form. Saving upserts the
    page being edited and reloads the list; the backend's replies are
    parameters. */
module PagesManagement {
  import opened Common
  import opened Text
  import opened Slugs

  /** A page; `content` is free-form JSON, kept here as opaque text. */
  datatype Page = Page(
    id: string,
    title: string,
    slug: string,
    content: string,
    seoTitle: Option<string>,
    seoDescription: Option<string>,
    seoKeywords: Option<string>,
    ogImage: Option<string>,
    isActive: bool)

  /** The form `addNewPage` opens: empty texts, empty id, active. */
  function NewPage(): (p: Page)
    ensures p.id == "" && p.title == "" && p.slug == "" && p.isActive
    ensures p.seoKeywords == Some("")
  {
    Page("", "", "", "{}", Some(""), Some(""), Some(""), Some(""), true)
  }

  /** The search box matches a page when its lower-cased title or slug
      contains the lower-cased term. */
  predicate MatchesSearch(p: Page, term: string)
  {
    Includes(Lower(p.title), Lower(term)) || Includes(Lower(p.slug), Lower(term))
  }

  /** `filteredPages`. */
  function FilteredPages(pages: seq<Page>, term: string): (r: seq<Page>)
    ensures |r| <= |pages|
    ensures forall i :: 0 <= i < |r| ==> MatchesSearch(r[i], term)
    ensures IsSubsequence(r, pages)
  {
    Filter(pages, p => MatchesSearch(p, term))
  }

  /** A page is listed exactly when it is one of the pages and matches. */
  lemma FilteredPagesMembers(pages: seq<Page>, term: string, p: Page)
    ensures p in FilteredPages(pages, term) <==> p in pages && MatchesSearch(p, term)
  {
    FilterMembers(pages, q => MatchesSearch(q, term), p);
  }

  /** An empty search lists every page, in order. */
  lemma EmptySearchListsAll(pages: seq<Page>)
    ensures FilteredPages(pages, "") == pages
  {
    forall p: Page ensures MatchesSearch(p, "") {
      IncludesEmpty(Lower(p.title));
    }
    FilterKeepsAll(pages, p => MatchesSearch(p, ""));
  }

  /** The search ignores the case of the term. */
  lemma SearchIgnoresTermCase(pages: seq<Page>, term: string)
    ensures FilteredPages(pages, term) == FilteredPages(pages, Lower(term))
  {
    LowerIdempotent(term);
    FilterSameCondition(pages, p => MatchesSearch(p, term), p => MatchesSearch(p, Lower(term)));
  }

  /** The keyword badges of a page card: shown only when the keywords are a
      non-empty string, then one badge per comma-separated piece, trimmed.
      Blank pieces still get a badge. */
  function KeywordBadges(p: Page): (r: seq<string>)
    ensures p.seoKeywords.None? || p.seoKeywords.value == "" ==> r == []
    ensures p.seoKeywords.Some? && p.seoKeywords.value != "" ==>
              |r| == |Split(p.seoKeywords.value, ',')| &&
              forall k :: 0 <= k < |r| ==> r[k] == Trim(Split(p.seoKeywords.value, ',')[k])
  {
    if p.seoKeywords.Some? && p.seoKeywords.value != "" then
      var pieces := Split(p.seoKeywords.value, ',');
      seq(|pieces|, k requires 0 <= k < |pieces| => Trim(pieces[k]))
    else []
  }

  /** The badges are the pieces between the commas: no badge holds a comma,
      and the untrimmed pieces joined with commas give the keywords back. */
  lemma KeywordBadgesArePieces(p: Page)
    requires p.seoKeywords.Some? && p.seoKeywords.value != ""
    ensures forall k :: 0 <= k < |KeywordBadges(p)| ==> ',' !in KeywordBadges(p)[k]
    ensures Join(Split(p.seoKeywords.value, ','), ',') == p.seoKeywords.value
  {
    var pieces := Split(p.seoKeywords.value, ',');
    forall k | 0 <= k < |pieces| ensures ',' !in Trim(pieces[k]) {
      TrimIsWindow(pieces[k]);
    }
    JoinSplit(p.seoKeywords.value, ',');
  }

  class PagesManager {
    var pages: seq<Page>
    var editing: Option<Page>
    var isLoading: bool
    var isSaving: bool
    var searchTerm: string

    constructor ()
      ensures pages == [] && editing.None? && isLoading && !isSaving && searchTerm == ""
    {
      pages := [];
      editing := None;
      isLoading := true;
      isSaving := false;
      searchTerm := "";
    }

    /** `fetchPages`: the pages ordered by title replace the list; a failed
        fetch leaves it. */
    method Fetch(rows: Option<seq<Page>>)
      modifies this`pages, this`isLoading
      ensures pages == if rows.Some? then rows.value else old(pages)
      ensures !isLoading
    {
      if rows.Some? {
        pages := rows.value;
      }
      isLoading := false;
    }

    /** The pages the grid shows. */
    function Shown(): seq<Page>
      reads this
    {
      FilteredPages(pages, searchTerm)
    }

    method SetSearchTerm(term: string)
      modifies this`searchTerm
      ensures searchTerm == term
    {
      searchTerm := term;
    }

    /** `addNewPage`. */
    method AddNew()
      modifies this`editing
      ensures editing == Some(NewPage())
    {
      editing := Some(NewPage());
    }

    /** The edit button of a card. */
    method Edit(p: Page)
      modifies this`editing
      ensures editing == Some(p)
    {
      editing := Some(p);
    }

    /** The cancel button. */
    method Cancel()
      modifies this`editing
      ensures editing.None?
    {
      editing := None;
    }

    /** Typing in the title field (the form exists only while a page is
        edited): the title is taken as typed and the slug regenerated from
        it with the pages rule, which leaves only `[a-z0-9_-]`. */
    method SetTitle(v: string)
      requires editing.Some?
      modifies this`editing
      ensures editing == Some(old(editing).value.(title := v, slug := PageSlug(v)))
      ensures forall i :: 0 <= i < |editing.value.slug| ==> PageSlugChar(editing.value.slug[i])
    {
      editing := Some(editing.value.(title := v, slug := PageSlug(v)));
    }

    /** Typing in the slug field: the typed text goes through the same rule. */
    method SetSlug(v: string)
      requires editing.Some?
      modifies this`editing
      ensures editing == Some(old(editing).value.(slug := PageSlug(v)))
      ensures forall i :: 0 <= i < |editing.value.slug| ==> PageSlugChar(editing.value.slug[i])
    {
      editing := Some(editing.value.(slug := PageSlug(v)));
    }

    /** The save button is enabled: not already saving, and the page being
        edited has a title and a slug. */
    predicate CanSave()
      reads this
    {
      !isSaving && editing.Some? && editing.value.title != "" && editing.value.slug != ""
    }

    /** `handleSave`: upserts the edited page. On success the list is
        reloaded (`refetched`, absent when the reload fails) and the form
        closes; on failure list and form stay as they were. */
    method Save(succeeded: bool, refetched: Option<seq<Page>>) returns (upserted: Page)
      requires CanSave()
      modifies this`pages, this`editing, this`isSaving
      ensures upserted == old(editing).value
      ensures pages == if succeeded && refetched.Some? then refetched.value else old(pages)
      ensures editing == if succeeded then None else old(editing)
      ensures !isSaving
    {
      isSaving := true;
      upserted := editing.value;
      if succeeded {
        if refetched.Some? {
          pages := refetched.value;
        }
        editing := None;
      }
      isSaving := false;
    }

    /** `handleDelete(id)`: after confirmation the row is deleted; a
        successful delete reloads the list. Returns the id of the delete
        sent, if any. */
    method Delete(id: string, confirmed: bool, succeeded: bool, refetched: Option<seq<Page>>)
      returns (deleted: Option<string>)
      modifies this`pages
      ensures deleted == if confirmed then Some(id) else None
      ensures pages == if confirmed && succeeded && refetched.Some? then refetched.value else old(pages)
    {
      deleted := None;
      if confirmed {
        deleted := Some(id);
        if succeeded && refetched.Some? {
          pages := refetched.value;
        }
      }
    }
  }

  /** A title of punctuation only (no letter, digit, underscore, hyphen or
      whitespace) gives an empty slug, so once it has been typed the save
      button stays disabled. */
  lemma PunctuationTitleCannotBeSaved(m: PagesManager, t: string)
    requires forall i :: 0 <= i < |t| ==> !IsWordOrHyphen(t[i]) && !IsSpace(t[i])
    requires m.editing.Some? && m.editing.value.slug == PageSlug(t)
    ensures !m.CanSave()
  {
    PunctuationGivesEmptySlug(t);
  }
}

=== FILE: pricing_manager.dfy ===
/** The pricing tiers manager (src/pages/admin/PricingManager.tsx): the list
    of tiers ordered by `sort_order` and one edit form with price fields and
    feature lines. Prices are whole numbers here; the backend's replies and
    the confirmation dialog are parameters. */
module PricingManagement {
  import opened Common
  import opened FeatureLists

  datatype Tier = Tier(
    id: string,
    name: string,
    priceMonthly: int,
    priceAnnual: int,
    description: Option<string>,
    features: seq<string>,
    isFeatured: bool,
    isActive: bool,
    sortOrder: int)

  /** The form `addNewTier` opens for a list of `n` tiers: empty texts and
      id, both prices 0, no features, not featured, active, placed last. */
  function NewTier(n: nat): (t: Tier)
    ensures t.id == "" && t.name == "" && t.priceMonthly == 0 && t.priceAnnual == 0
    ensures t.features == [] && !t.isFeatured && t.isActive && t.sortOrder == n
  {
    Tier("", "", 0, 0, Some(""), [], false, true, n)
  }

  /** The saving a tier card shows: twelve monthly payments minus the annual
      price. */
  function CardSavings(t: Tier): (r: int)
    ensures r > 0 <==> t.priceAnnual < 12 * t.priceMonthly
    ensures r == 0 <==> t.priceAnnual == 12 * t.priceMonthly
  {
    t.priceMonthly * 12 - t.priceAnnual
  }

  class PricingManager {
    var tiers: seq<Tier>
    var editing: Option<Tier>
    var isLoading: bool
    var isSaving: bool

    constructor ()
      ensures tiers == [] && editing.None? && isLoading && !isSaving
    {
      tiers := [];
      editing := None;
      isLoading := true;
      isSaving := false;
    }

    /** `fetchTiers`: the rows ordered by `sort_order` replace the list; a
        failed fetch leaves it. */
    method Fetch(rows: Option<seq<Tier>>)
      modifies this`tiers, this`isLoading
      ensures tiers == if rows.Some? then rows.value else old(tiers)
      ensures !isLoading
    {
      if rows.Some? {
        tiers := rows.value;
      }
      isLoading := false;
    }

    /** `addNewTier`: a new tier placed after the existing ones. */
    method AddNew()
      modifies this`editing
      ensures editing == Some(NewTier(|tiers|))
    {
      editing := Some(NewTier(|tiers|));
    }

    /** The edit button of a card. */
    method Edit(t: Tier)
      modifies this`editing
      ensures editing == Some(t)
    {
      editing := Some(t);
    }

    /** The cancel button. */
    method Cancel()
      modifies this`editing
      ensures editing.None?
    {
      editing := None;
    }

    /** Typing in the monthly price field: `parseFloat(value) || 0`, where
        `parsed` is the number the text reads as, absent when it does not
        read as one. */
    method SetMonthlyPrice(parsed: Option<int>)
      requires editing.Some?
      modifies this`editing
      ensures editing == Some(old(editing).value.(priceMonthly := if parsed.Some? then parsed.value else 0))
    {
      editing := Some(editing.value.(priceMonthly := if parsed.Some? then parsed.value else 0));
    }

    /** Typing in the annual price field, read the same way. */
    method SetAnnualPrice(parsed: Option<int>)
      requires editing.Some?
      modifies this`editing
      ensures editing == Some(old(editing).value.(priceAnnual := if parsed.Some? then parsed.value else 0))
    {
      editing := Some(editing.value.(priceAnnual := if parsed.Some? then parsed.value else 0));
    }

    /** `updateFeature(index, value)`; nothing happens when no tier is being
        edited. */
    method UpdateFeature(index: nat, v: string)
      requires editing.Some? ==> index < |editing.value.features|
      modifies this`editing
      ensures editing == if old(editing).None? then None
                         else Some(old(editing).value.(features := SetFeature(old(editing).value.features, index, v)))
    {
      if editing.None? {
        return;
      }
      editing := Some(editing.value.(features := SetFeature(editing.value.features, index, v)));
    }

    /** `addFeature`; nothing happens when no tier is being edited. */
    method AddFeature()
      modifies this`editing
      ensures editing == if old(editing).None? then None
                         else Some(old(editing).value.(features := AddBlankFeature(old(editing).value.features)))
    {
      if editing.None? {
        return;
      }
      editing := Some(editing.value.(features := AddBlankFeature(editing.value.features)));
    }

    /** `removeFeature(index)`; nothing happens when no tier is being
        edited. */
    method RemoveFeatureAt(index: nat)
      modifies this`editing
      ensures editing == if old(editing).None? then None
                         else Some(old(editing).value.(features := RemoveFeature(old(editing).value.features, index)))
    {
      if editing.None? {
        return;
      }
      editing := Some(editing.value.(features := RemoveFeature(editing.value.features, index)));
    }

    /** `handleSave`: upserts the edited tier. On success the list is
        reloaded (`refetched`, absent when the reload fails) and the form
        closes; on failure both stay. */
    method Save(succeeded: bool, refetched: Option<seq<Tier>>) returns (upserted: Tier)
      requires !isSaving && editing.Some?
      modifies this`tiers, this`editing, this`isSaving
      ensures upserted == old(editing).value
      ensures tiers == if succeeded && refetched.Some? then refetched.value else old(tiers)
      ensures editing == if succeeded then None else old(editing)
      ensures !isSaving
    {
      isSaving := true;
      upserted := editing.value;
      if succeeded {
        if refetched.Some? {
          tiers := refetched.value;
        }
        editing := None;
      }
      isSaving := false;
    }

    /** `handleDelete(id)`: after confirmation the row is deleted and, on
        success, the list reloaded. Returns the id of the delete sent. */
    method Delete(id: string, confirmed: bool, succeeded: bool, refetched: Option<seq<Tier>>)
      returns (deleted: Option<string>)
      modifies this`tiers
      ensures deleted == if confirmed then Some(id) else None
      ensures tiers == if confirmed && succeeded && refetched.Some? then refetched.value else old(tiers)
    {
      deleted := None;
      if confirmed {
        deleted := Some(id);
        if succeeded && refetched.Some? {
          tiers := refetched.value;
        }
      }
    }
  }
}

=== FILE: pricing_page.dfy ===
/** The public pricing page (src/pages/Pricing.tsx): three plans and a
    monthly/annual switch that changes the price shown and the savings
    line. Prices are whole dollars per month. */
module PricingPage {

  /** A plan card; the list of features is not modelled. */
  datatype Plan = Plan(
    name: string,
    description: string,
    monthlyPrice: nat,
    annualPrice: nat,
    cta: string,
    popular: bool)

  /** `plans`, in display order. */
  const Plans: seq<Plan> := [
    Plan("Starter", "Perfect for small businesses and startups", 99, 89, "Get Started", false),
    Plan("Professional", "Ideal for growing businesses", 299, 249, "Start Professional", true),
    Plan("Enterprise", "For large organizations with complex needs", 699, 599, "Contact Sales", false)
  ]

  /** The price a card shows per month. */
  function DisplayedPrice(p: Plan, isAnnual: bool): (price: nat)
    ensures isAnnual ==> price == p.annualPrice
    ensures !isAnnual ==> price == p.monthlyPrice
  {
    if isAnnual then p.annualPrice else p.monthlyPrice
  }

  /** The struck-through monthly price and the savings line are shown. */
  predicate ShowsSavings(p: Plan, isAnnual: bool)
  {
    isAnnual && p.monthlyPrice > p.annualPrice
  }

  /** The yearly saving the card states: the monthly difference times 12. */
  function YearlySavings(p: Plan): int
  {
    (p.monthlyPrice - p.annualPrice) * 12
  }

  /** Whenever the savings line is shown it states a positive amount, a
      multiple of 12 dollars, and the price shown is below the struck one. */
  lemma ShownSavingsArePositive(p: Plan, isAnnual: bool)
    requires ShowsSavings(p, isAnnual)
    ensures YearlySavings(p) > 0 && YearlySavings(p) % 12 == 0
    ensures DisplayedPrice(p, isAnnual) < p.monthlyPrice
  {
  }

  /** In monthly mode no card shows a savings line. */
  lemma MonthlyShowsNoSavings(p: Plan)
    ensures !ShowsSavings(p, false) && DisplayedPrice(p, false) == p.monthlyPrice
  {
  }

  /** Every plan is cheaper per month when paid annually, so in annual mode
      all three cards show savings: 120, 600 and 1200 dollars a year. */
  lemma AnnualSavingsOfEveryPlan()
    ensures forall i :: 0 <= i < |Plans| ==> ShowsSavings(Plans[i], true)
    ensures YearlySavings(Plans[0]) == 120
    ensures YearlySavings(Plans[1]) == 600
    ensures YearlySavings(Plans[2]) == 1200
  {
  }

  /** The "Save 15%" badge against the plans' actual monthly discounts:
      only the Professional plan saves 15% or more; Starter saves about 10%
      and Enterprise about 14%. */
  lemma BadgeAgainstActualDiscounts()
    ensures (Plans[0].monthlyPrice - Plans[0].annualPrice) * 100 < 15 * Plans[0].monthlyPrice
    ensures (Plans[1].monthlyPrice - Plans[1].annualPrice) * 100 >= 15 * Plans[1].monthlyPrice
    ensures (Plans[2].monthlyPrice - Plans[2].annualPrice) * 100 < 15 * Plans[2].monthlyPrice
  {
  }

  class PricingToggle {
    var isAnnual: bool

    /** The page starts in monthly mode. */
    constructor ()
      ensures !isAnnual
    {
      isAnnual := false;
    }

    /** The monthly/annual switch. */
    method SetAnnual(checked: bool)
      modifies this
      ensures isAnnual == checked
    {
      isAnnual := checked;
    }

    /** The "Save 15%" badge is shown. */
    predicate ShowsSaveBadge()
      reads this
    {
      isAnnual
    }
  }
}

=== FILE: protected_route.dfy ===
/** The route guard in front of the admin panel
    (src/components/ProtectedRoute.tsx): from the authentication state it
    decides between a spinner, a redirect to the sign-in page, an access
    denied page and the protected content. */
module RouteGuard {

  datatype Outcome =
    | Spinner
    | Redirect(to: string, replace: bool)
    | AccessDenied
    | Children

  /** The sign-in route. */
  const AuthPath: string := "/auth"

  /** The guard's decision, checked in the source's order: loading, then
      signed out, then a missing admin role when one is required. */
  function Guard(hasUser: bool, isAdmin: bool, isLoading: bool, requireAdmin: bool): (o: Outcome)
    ensures o == Spinner <==> isLoading
    ensures o.Redirect? <==> !isLoading && !hasUser
    ensures o.Redirect? ==> o.to == AuthPath && o.replace
    ensures o == AccessDenied <==> !isLoading && hasUser && requireAdmin && !isAdmin
    ensures o == Children <==> !isLoading && hasUser && (!requireAdmin || isAdmin)
  {
    if isLoading then Spinner
    else if !hasUser then Redirect(AuthPath, true)
    else if requireAdmin && !isAdmin then AccessDenied
    else Children
  }

  /** `<ProtectedRoute>` without `requireAdmin`, which defaults to false:
      every signed-in user gets the content once loading is over, whatever
      their role, and nobody is ever denied. */
  function GuardDefault(hasUser: bool, isAdmin: bool, isLoading: bool): (o: Outcome)
    ensures o != AccessDenied
    ensures hasUser && !isLoading ==> o == Children
    ensures o == Guard(hasUser, isAdmin, isLoading, false)
  {
    Guard(hasUser, isAdmin, isLoading, false)
  }

  /** Requiring the admin role only ever turns content into a denial: every
      other outcome is the same with or without it. */
  lemma RequireAdminOnlyDenies(hasUser: bool, isAdmin: bool, isLoading: bool)
    ensures Guard(hasUser, isAdmin, isLoading, true) != Guard(hasUser, isAdmin, isLoading, false) ==>
              Guard(hasUser, isAdmin, isLoading, true) == AccessDenied &&
              Guard(hasUser, isAdmin, isLoading, false) == Children
  {
  }

  /** An admin passes the guard exactly when a plain signed-in user does. */
  lemma AdminsPassEitherWay(hasUser: bool, isLoading: bool, requireAdmin: bool)
    ensures Guard(hasUser, true, isLoading, requireAdmin) == GuardDefault(hasUser, true, isLoading)
  {
  }
}

=== FILE: public_blog.dfy ===
/** The public blog index (src/pages/Blog.tsx): six built-in articles, a
    search box and a row of category buttons. */
module PublicBlog {
  import opened Common
  import opened Text

  /** An article card; the cover image URL is not modelled. */
  datatype Article = Article(
    id: string,
    title: string,
    excerpt: string,
    author: string,
    date: string,
    category: string,
    readTime: string)

  /** `blogPosts`, newest first. */
  const Articles: seq<Article> := [
    Article("web-development-trends-2024",
            "The Future of Web Development: Top Trends to Watch in 2024",
            "Discover the latest web development trends that will shape the industry, from AI integration to progressive web apps.",
            "Sarah Johnson", "2024-01-15", "Web Development", "8 min read"),
    Article("mobile-app-design-principles",
            "Essential Mobile App Design Principles for Better User Experience",
            "Learn the fundamental design principles that make mobile apps intuitive, engaging, and successful in the marketplace.",
            "Michael Chen", "2024-01-12", "Mobile Development", "6 min read"),
    Article("cloud-infrastructure-best-practices",
            "Cloud Infrastructure Best Practices: Building Scalable Applications",
            "A comprehensive guide to implementing cloud infrastructure that scales with your business and optimizes costs.",
            "David Rodriguez", "2024-01-10", "Cloud Computing", "12 min read"),
    Article("data-analytics-business-growth",
            "How Data Analytics Drives Business Growth in 2024",
            "Explore how modern businesses leverage data analytics to make informed decisions and accelerate growth.",
            "Emily Watson", "2024-01-08", "Data Analytics", "10 min read"),
    Article("cybersecurity-small-businesses",
            "Cybersecurity Essentials for Small Businesses",
            "Protect your business with these essential cybersecurity practices that every small business should implement.",
            "Alex Thompson", "2024-01-05", "Security", "7 min read"),
    Article("api-integration-guide",
            "Complete Guide to API Integration for Modern Applications",
            "Master the art of API integration with practical examples and best practices for seamless data exchange.",
            "Sarah Johnson", "2024-01-03", "Development", "9 min read")
  ]

  /** The category that lets every article through. */
  const AllCategories: string := "All"

  /** The category buttons, in order. */
  const Categories: seq<string> := [AllCategories, "Web Development", "Mobile Development",
    "Cloud Computing", "Data Analytics", "Security", "Development"]

  /** The query matches an article when its lower-cased title or excerpt
      contains the lower-cased query. */
  predicate MatchesQuery(a: Article, query: string)
  {
    Includes(Lower(a.title), Lower(query)) || Includes(Lower(a.excerpt), Lower(query))
  }

  predicate MatchesCategory(a: Article, category: string)
  {
    category == AllCategories || a.category == category
  }

  /** `filteredPosts`. */
  function FilteredArticles(query: string, category: string): (r: seq<Article>)
    ensures |r| <= |Articles|
    ensures forall i :: 0 <= i < |r| ==> MatchesQuery(r[i], query) && MatchesCategory(r[i], category)
    ensures IsSubsequence(r, Articles)
  {
    Filter(Articles, a => MatchesQuery(a, query) && MatchesCategory(a, category))
  }

  /** An article is shown exactly when it matches the query and the
      category. */
  lemma FilteredArticlesMembers(query: string, category: string, a: Article)
    ensures a in FilteredArticles(query, category) <==>
            a in Articles && MatchesQuery(a, query) && MatchesCategory(a, category)
  {
    FilterMembers(Articles, b => MatchesQuery(b, query) && MatchesCategory(b, category), a);
  }

  /** Every article matches the empty query. */
  lemma EmptyQueryMatches(a: Article)
    ensures MatchesQuery(a, "")
  {
    IncludesEmpty(Lower(a.title));
  }

  /** The page opens with an empty query on "All": all six articles show, in
      order. */
  lemma InitiallyAllShown()
    ensures FilteredArticles("", AllCategories) == Articles
    ensures |FilteredArticles("", AllCategories)| == 6
  {
    forall a: Article ensures MatchesQuery(a, "") {
      EmptyQueryMatches(a);
    }
    FilterKeepsAll(Articles, a => MatchesQuery(a, "") && MatchesCategory(a, AllCategories));
  }

  /** Every article's category has a button, and with an empty query that
      button shows the article. */
  lemma EveryCategoryHasAButton(i: nat)
    requires i < |Articles|
    ensures Articles[i].category in Categories
    ensures Articles[i] in FilteredArticles("", Articles[i].category)
  {
    EmptyQueryMatches(Articles[i]);
    FilteredArticlesMembers("", Articles[i].category, Articles[i]);
  }
}

=== FILE: services_manager.dfy ===
/** The services manager (src/pages/admin/ServicesManager.tsx): the list of
    services ordered by `sort_order` and one edit form, whose title field
    regenerates the slug and whose feature lines can be edited one by one.
    The backend's replies and the confirmation dialog are parameters. */
module ServicesManagement {
  import opened Common
  import opened Text
  import opened Slugs
  import opened FeatureLists

  datatype Service = Service(
    id: string,
    title: string,
    slug: string,
    description: string,
    icon: string,
    features: seq<string>,
    seoTitle: Option<string>,
    seoDescription: Option<string>,
    seoKeywords: Option<string>,
    ogImage: Option<string>,
    isActive: bool,
    sortOrder: int)

  /** The form `addNewService` opens for a list of `n` services: empty texts
      and id, the `Settings` icon, no features, active, placed last. */
  function NewService(n: nat): (s: Service)
    ensures s.id == "" && s.title == "" && s.slug == "" && s.icon == "Settings"
    ensures s.features == [] && s.isActive && s.sortOrder == n
  {
    Service("", "", "", "", "Settings", [], Some(""), Some(""), Some(""), Some(""), true, n)
  }

  class ServicesManager {
    var services: seq<Service>
    var editing: Option<Service>
    var isLoading: bool
    var isSaving: bool

    constructor ()
      ensures services == [] && editing.None? && isLoading && !isSaving
    {
      services := [];
      editing := None;
      isLoading := true;
      isSaving := false;
    }

    /** `fetchServices`: the rows ordered by `sort_order` replace the list;
        a failed fetch leaves it. */
    method Fetch(rows: Option<seq<Service>>)
      modifies this`services, this`isLoading
      ensures services == if rows.Some? then rows.value else old(services)
      ensures !isLoading
    {
      if rows.Some? {
        services := rows.value;
      }
      isLoading := false;
    }

    /** `addNewService`: a new service placed after the existing ones. */
    method AddNew()
      modifies this`editing
      ensures editing == Some(NewService(|services|))
    {
      editing := Some(NewService(|services|));
    }

    /** The edit button of a card. */
    method Edit(s: Service)
      modifies this`editing
      ensures editing == Some(s)
    {
      editing := Some(s);
    }

    /** The cancel button. */
    method Cancel()
      modifies this`editing
      ensures editing.None?
    {
      editing := None;
    }

    /** Typing in the title field: the slug is regenerated with the services
        rule, so it holds no whitespace and no upper-case letter. */
    method SetTitle(v: string)
      requires editing.Some?
      modifies this`editing
      ensures editing == Some(old(editing).value.(title := v, slug := ServiceSlug(v)))
      ensures forall i :: 0 <= i < |editing.value.slug| ==>
                !IsSpace(editing.value.slug[i]) && !IsUpper(editing.value.slug[i])
    {
      editing := Some(editing.value.(title := v, slug := ServiceSlug(v)));
    }

    /** Typing in the slug field: taken exactly as typed, unlike the pages
        manager's slug field. */
    method SetSlug(v: string)
      requires editing.Some?
      modifies this`editing
      ensures editing == Some(old(editing).value.(slug := v))
    {
      editing := Some(editing.value.(slug := v));
    }

    /** `updateFeature(index, value)`; nothing happens when no service is
        being edited. */
    method UpdateFeature(index: nat, v: string)
      requires editing.Some? ==> index < |editing.value.features|
      modifies this`editing
      ensures editing == if old(editing).None? then None
                         else Some(old(editing).value.(features := SetFeature(old(editing).value.features, index, v)))
    {
      if editing.None? {
        return;
      }
      editing := Some(editing.value.(features := SetFeature(editing.value.features, index, v)));
    }

    /** `addFeature`; nothing happens when no service is being edited. */
    method AddFeature()
      modifies this`editing
      ensures editing == if old(editing).None? then None
                         else Some(old(editing).value.(features := AddBlankFeature(old(editing).value.features)))
    {
      if editing.None? {
        return;
      }
      editing := Some(editing.value.(features := AddBlankFeature(editing.value.features)));
    }

    /** `removeFeature(index)`; nothing happens when no service is being
        edited. */
    method RemoveFeatureAt(index: nat)
      modifies this`editing
      ensures editing == if old(editing).None? then None
                         else Some(old(editing).value.(features := RemoveFeature(old(editing).value.features, index)))
    {
      if editing.None? {
        return;
      }
      editing := Some(editing.value.(features := RemoveFeature(editing.value.features, index)));
    }

    /** `handleSave`: upserts the edited service. On success the list is
        reloaded (`refetched`, absent when the reload fails) and the form
        closes; on failure both stay. */
    method Save(succeeded: bool, refetched: Option<seq<Service>>) returns (upserted: Service)
      requires !isSaving && editing.Some?
      modifies this`services, this`editing, this`isSaving
      ensures upserted == old(editing).value
      ensures services == if succeeded && refetched.Some? then refetched.value else old(services)
      ensures editing == if succeeded then None else old(editing)
      ensures !isSaving
    {
      isSaving := true;
      upserted := editing.value;
      if succeeded {
        if refetched.Some? {
          services := refetched.value;
        }
        editing := None;
      }
      isSaving := false;
    }

    /** `handleDelete(id)`: after confirmation the row is deleted and, on
        success, the list reloaded. Returns the id of the delete sent. */
    method Delete(id: string, confirmed: bool, succeeded: bool, refetched: Option<seq<Service>>)
      returns (deleted: Option<string>)
      modifies this`services
      ensures deleted == if confirmed then Some(id) else None
      ensures services == if confirmed && succeeded && refetched.Some? then refetched.value else old(services)
    {
      deleted := None;
      if confirmed {
        deleted := Some(id);
        if succeeded && refetched.Some? {
          services := refetched.value;
        }
      }
    }
  }

  /** Adding a feature line and removing it again leaves the edited service
      as it was. */
  method AddThenRemoveFeature(m: ServicesManager)
    requires m.editing.Some?
    modifies m
    ensures m.editing == old(m.editing)
  {
    var n := |m.editing.value.features|;
    m.AddFeature();
    m.RemoveFeatureAt(n);
    RemoveUndoesAddFeature(old(m.editing).value.features);
  }
}

=== FILE: slugs.dfy ===
/** The three slug rules of the admin panel:
    - the blog editor's rule (src/pages/admin/BlogEditor.tsx:60-65),
    - the pages manager's rule (src/pages/admin/PagesManager.tsx:199,211),
    - the services manager's rule (src/pages/admin/ServicesManager.tsx:206).
    Each `.replace(/X+/g, c)` is `ReplaceRuns`, each `.replace(/[^K]/g, '')`
    is a `Filter` that keeps the class `K`. */
module Slugs {
  import opened Common
  import opened Text

  /** The characters the blog rule keeps: `[a-z0-9 -]`. */
  predicate BlogKeeps(c: char) { IsLowerLetter(c) || IsDigit(c) || c == ' ' || c == '-' }

  /** JavaScript's `[\w-]`: ASCII letters, digits, underscore and hyphen. */
  predicate IsWordOrHyphen(c: char) { IsUpper(c) || IsLowerLetter(c) || IsDigit(c) || c == '_' || c == '-' }

  predicate NotUpper(c: char) { !IsUpper(c) }

  predicate NoSpaceNoUpper(c: char) { !IsSpace(c) && !IsUpper(c) }

  /** The characters a blog slug is made of: `[a-z0-9-]`. */
  predicate BlogSlugChar(c: char) { IsLowerLetter(c) || IsDigit(c) || c == '-' }

  /** The characters a page slug is made of: `[a-z0-9_-]`. */
  predicate PageSlugChar(c: char) { IsLowerLetter(c) || IsDigit(c) || c == '_' || c == '-' }

  /** `s` with its leading characters that satisfy `p` removed. */
  function DropWhile(s: string, p: char -> bool): (r: string)
    ensures |r| <= |s| && r == s[|s| - |r|..]
    ensures r != [] ==> !p(r[0])
    decreases |s|
  {
    if s != [] && p(s[0]) then DropWhile(s[1..], p) else s
  }

  /** `s.replace(/X+/g, rep)` where `X` is the class `inRun`: every maximal
      run of characters in the class becomes the single character `rep`. */
  function ReplaceRuns(s: string, inRun: char -> bool, rep: char): (r: string)
    ensures |r| <= |s|
    ensures r == [] <==> s == []
    ensures r != [] ==> r[0] == (if inRun(s[0]) then rep else s[0])
    ensures forall i :: 0 <= i < |r| ==> r[i] == rep || !inRun(r[i])
    ensures forall i :: 0 <= i < |r| - 1 ==> !(inRun(r[i]) && inRun(r[i + 1]))
    decreases |s|
  {
    if s == [] then []
    else if inRun(s[0]) then [rep] + ReplaceRuns(DropWhile(s[1..], inRun), inRun, rep)
    else [s[0]] + ReplaceRuns(s[1..], inRun, rep)
  }

  /** A string in which every character of the class is already `rep` and
      no two of them are adjacent is left unchanged by `ReplaceRuns`. */
  lemma {:induction false} ReplaceRunsFixed(s: string, inRun: char -> bool, rep: char)
    requires forall i :: 0 <= i < |s| && inRun(s[i]) ==> s[i] == rep
    requires forall i :: 0 <= i < |s| - 1 ==> !(inRun(s[i]) && inRun(s[i + 1]))
    ensures ReplaceRuns(s, inRun, rep) == s
    decreases |s|
  {
    if s != [] {
      ReplaceRunsFixed(s[1..], inRun, rep);
      if inRun(s[0]) {
        assert DropWhile(s[1..], inRun) == s[1..];
      }
    }
  }

  /** `ReplaceRuns` introduces no character outside a class that contains
      `rep` and every character of the input outside the runs. */
  lemma {:induction false} ReplaceRunsStaysInClass(s: string, inRun: char -> bool, rep: char, cls: char -> bool)
    requires cls(rep)
    requires forall i :: 0 <= i < |s| && !inRun(s[i]) ==> cls(s[i])
    ensures forall i :: 0 <= i < |ReplaceRuns(s, inRun, rep)| ==> cls(ReplaceRuns(s, inRun, rep)[i])
    decreases |s|
  {
    if s != [] {
      if inRun(s[0]) {
        var rest := DropWhile(s[1..], inRun);
        assert forall i :: 0 <= i < |rest| ==> rest[i] == s[|s| - |rest| + i];
        ReplaceRunsStaysInClass(rest, inRun, rep, cls);
      } else {
        ReplaceRunsStaysInClass(s[1..], inRun, rep, cls);
      }
    }
  }

  /** Dropping the leading run changes nothing outside the class. */
  lemma {:induction false} DropWhileKeepsOthers(s: string, inRun: char -> bool)
    ensures Filter(DropWhile(s, inRun), c => !inRun(c)) == Filter(s, c => !inRun(c))
    decreases |s|
  {
    if s != [] && inRun(s[0]) {
      DropWhileKeepsOthers(s[1..], inRun);
    }
  }

  /** When `rep` itself belongs to the class, the characters outside the
      class come out of `ReplaceRuns` exactly as they went in, in order. */
  lemma {:induction false} ReplaceRunsKeepsOthers(s: string, inRun: char -> bool, rep: char)
    requires inRun(rep)
    ensures Filter(ReplaceRuns(s, inRun, rep), c => !inRun(c)) == Filter(s, c => !inRun(c))
    decreases |s|
  {
    if s != [] {
      if inRun(s[0]) {
        var rest := DropWhile(s[1..], inRun);
        ReplaceRunsKeepsOthers(rest, inRun, rep);
        DropWhileKeepsOthers(s[1..], inRun);
        FilterConcat([rep], ReplaceRuns(rest, inRun, rep), c => !inRun(c));
      } else {
        ReplaceRunsKeepsOthers(s[1..], inRun, rep);
        FilterConcat([s[0]], ReplaceRuns(s[1..], inRun, rep), c => !inRun(c));
      }
    }
  }

  /** The number of maximal runs of the class in `s`: positions holding a
      character of the class whose predecessor (`prevIn` for the first
      position) is outside it. */
  function RunCount(s: string, inRun: char -> bool, prevIn: bool): nat
    decreases |s|
  {
    if s == [] then 0
    else (if inRun(s[0]) && !prevIn then 1 else 0) + RunCount(s[1..], inRun, inRun(s[0]))
  }

  /** Inside a run, skipping the rest of the run leaves the count of the
      runs that follow unchanged. */
  lemma {:induction false} RunCountDropWhile(s: string, inRun: char -> bool)
    ensures RunCount(s, inRun, true) == RunCount(DropWhile(s, inRun), inRun, false)
    decreases |s|
  {
    if s != [] && inRun(s[0]) {
      RunCountDropWhile(s[1..], inRun);
    }
  }

  /** When `rep` belongs to the class, `ReplaceRuns` leaves exactly one
      character of the class per maximal run. */
  lemma {:induction false} ReplaceRunsOnePerRun(s: string, inRun: char -> bool, rep: char)
    requires inRun(rep)
    ensures |Filter(ReplaceRuns(s, inRun, rep), inRun)| == RunCount(s, inRun, false)
    decreases |s|
  {
    if s != [] {
      if inRun(s[0]) {
        var rest := DropWhile(s[1..], inRun);
        ReplaceRunsOnePerRun(rest, inRun, rep);
        RunCountDropWhile(s[1..], inRun);
        FilterConcat([rep], ReplaceRuns(rest, inRun, rep), inRun);
      } else {
        ReplaceRunsOnePerRun(s[1..], inRun, rep);
        FilterConcat([s[0]], ReplaceRuns(s[1..], inRun, rep), inRun);
      }
    }
  }

  // ---------------------------------------------------------------------
  // The blog editor's rule

  /** The shape every blog slug has: only `a-z`, `0-9` and `-`, and never two
      hyphens in a row. */
  ghost predicate IsBlogSlug(s: string)
  {
    && (forall i :: 0 <= i < |s| ==> BlogSlugChar(s[i]))
    && (forall i :: 0 <= i < |s| - 1 ==> !(s[i] == '-' && s[i + 1] == '-'))
  }

  /** `title.toLowerCase().replace(/[^a-z0-9 -]/g, '').replace(/\s+/g, '-')
      .replace(/-+/g, '-').trim()`. The result has only `[a-z0-9-]`, never
      `--`, and is no longer than the title; its final `trim` has nothing
      left to remove. */
  function BlogSlug(title: string): (r: string)
    ensures IsBlogSlug(r)
    ensures |r| <= |title|
  {
    var kept := Filter(Lower(title), BlogKeeps);
    var spaced := ReplaceRuns(kept, IsSpace, '-');
    var collapsed := ReplaceRuns(spaced, IsHyphen, '-');
    assert forall i :: 0 <= i < |spaced| ==> BlogSlugChar(spaced[i]) by {
      ReplaceRunsStaysInClass(kept, IsSpace, '-', BlogSlugChar);
    }
    assert IsBlogSlug(collapsed) by {
      ReplaceRunsStaysInClass(spaced, IsHyphen, '-', BlogSlugChar);
    }
    assert Trim(collapsed) == collapsed by {
      TrimWithoutSpace(collapsed);
    }
    Trim(collapsed)
  }

  /** Applying the blog rule to one of its own slugs gives the same slug. */
  lemma BlogSlugFixed(s: string)
    requires IsBlogSlug(s)
    ensures BlogSlug(s) == s
  {
    LowerWithoutUpper(s);
    FilterKeepsAll(s, BlogKeeps);
    ReplaceRunsFixed(s, IsSpace, '-');
    ReplaceRunsFixed(s, IsHyphen, '-');
    TrimWithoutSpace(s);
  }

  /** The blog rule is idempotent. */
  lemma BlogSlugIdempotent(title: string)
    ensures BlogSlug(BlogSlug(title)) == BlogSlug(title)
  {
    BlogSlugFixed(BlogSlug(title));
  }

  // ---------------------------------------------------------------------
  // The pages manager's rule

  /** `v.toLowerCase().replace(/\s+/g, '-').replace(/[^\w-]/g, '')`. For
      ASCII input the result has only `[a-z0-9_-]` and is no longer than the
      input. */
  function PageSlug(v: string): (r: string)
    ensures forall i :: 0 <= i < |r| ==> PageSlugChar(r[i])
    ensures |r| <= |v|
  {
    var lowered := Lower(v);
    var spaced := ReplaceRuns(lowered, IsSpace, '-');
    ReplaceRunsStaysInClass(lowered, IsSpace, '-', NotUpper);
    FilterStaysInClass(spaced, IsWordOrHyphen, NotUpper);
    Filter(spaced, IsWordOrHyphen)
  }

  /** A string made only of `[a-z0-9_-]` passes through the pages rule
      unchanged; in particular hyphens that are already there, even several
      in a row, are kept as they are. */
  lemma PageSlugFixed(s: string)
    requires forall i :: 0 <= i < |s| ==> PageSlugChar(s[i])
    ensures PageSlug(s) == s
  {
    LowerWithoutUpper(s);
    ReplaceRunsFixed(s, IsSpace, '-');
    FilterKeepsAll(s, IsWordOrHyphen);
  }

  /** Re-sanitising a page slug in the slug field leaves it as it is. */
  lemma PageSlugIdempotent(v: string)
    ensures PageSlug(PageSlug(v)) == PageSlug(v)
  {
    PageSlugFixed(PageSlug(v));
  }

  /** A title with no letter, digit, underscore, hyphen or whitespace gives
      the empty page slug. */
  lemma PunctuationGivesEmptySlug(t: string)
    requires forall i :: 0 <= i < |t| ==> !IsWordOrHyphen(t[i]) && !IsSpace(t[i])
    ensures PageSlug(t) == ""
  {
    LowerWithoutUpper(t);
    ReplaceRunsFixed(t, IsSpace, '-');
    var r := Filter(t, IsWordOrHyphen);
    if r != [] {
      FilterMembers(t, IsWordOrHyphen, r[0]);
      assert false;
    }
  }

  /** Hyphens that are already in the input, even several in a row, are not
      collapsed by the pages rule. */
  lemma PageSlugKeepsHyphenRuns()
    ensures PageSlug("a--b") == "a--b"
  {
    PageSlugFixed("a--b");
  }

  // ---------------------------------------------------------------------
  // The services manager's rule

  /** `v.toLowerCase().replace(/\s+/g, '-')`: no whitespace and no
      upper-case letter is left, and the result is no longer than the
      input. */
  function ServiceSlug(v: string): (r: string)
    ensures forall i :: 0 <= i < |r| ==> !IsSpace(r[i]) && !IsUpper(r[i])
    ensures |r| <= |v|
  {
    ReplaceRunsStaysInClass(Lower(v), IsSpace, '-', NoSpaceNoUpper);
    ReplaceRuns(Lower(v), IsSpace, '-')
  }

  /** A string with no whitespace and no upper-case letter passes through
      the services rule unchanged. */
  lemma ServiceSlugFixed(s: string)
    requires forall i :: 0 <= i < |s| ==> !IsSpace(s[i]) && !IsUpper(s[i])
    ensures ServiceSlug(s) == s
  {
    LowerWithoutUpper(s);
    ReplaceRunsFixed(s, IsSpace, '-');
  }

  /** The services rule, too, is idempotent. */
  lemma ServiceSlugIdempotent(v: string)
    ensures ServiceSlug(ServiceSlug(v)) == ServiceSlug(v)
  {
    ServiceSlugFixed(ServiceSlug(v));
  }
}

=== FILE: testimonials.dfy ===
/** The batch list editor for testimonials
    (src/pages/admin/TestimonialEditor.tsx). The editor keeps the list in
    local state; add, update and remove change it in memory, remove also
    deletes persisted rows, and save sends one write per record and folds the
    rows the backend returns back into the list. Backend replies are
    parameters. */
module Testimonials {
  import opened Common

  datatype Testimonial = Testimonial(
    id: Option<string>,
    authorName: string,
    authorRole: string,
    authorCompany: string,
    content: string,
    rating: int,
    authorAvatar: string,
    isFeatured: bool,
    isActive: bool,
    sortOrder: int)

  /** `if (testimonial.id)`: an id is present and, JavaScript truthiness,
      not the empty string. */
  predicate HasId(t: Testimonial)
  {
    t.id.Some? && t.id.value != ""
  }

  /** `keyof Testimonial`. */
  datatype Field =
    | Id | AuthorName | AuthorRole | AuthorCompany | Content
    | Rating | AuthorAvatar | IsFeatured | IsActive | SortOrder

  /** A field's value, whichever its type. */
  datatype Value = Ident(ident: Option<string>) | Text(text: string) | Number(number: int) | Flag(flag: bool)

  /** The value has the type the interface declares for the field. */
  predicate Fits(f: Field, v: Value)
  {
    match f
    case Id => v.Ident?
    case AuthorName | AuthorRole | AuthorCompany | Content | AuthorAvatar => v.Text?
    case Rating | SortOrder => v.Number?
    case IsFeatured | IsActive => v.Flag?
  }

  /** `t[field]`. */
  function Get(t: Testimonial, f: Field): (v: Value)
    ensures Fits(f, v)
  {
    match f
    case Id => Ident(t.id)
    case AuthorName => Text(t.authorName)
    case AuthorRole => Text(t.authorRole)
    case AuthorCompany => Text(t.authorCompany)
    case Content => Text(t.content)
    case Rating => Number(t.rating)
    case AuthorAvatar => Text(t.authorAvatar)
    case IsFeatured => Flag(t.isFeatured)
    case IsActive => Flag(t.isActive)
    case SortOrder => Number(t.sortOrder)
  }

  /** Two records that agree on every field are the same record. */
  lemma FieldsDetermineRecord(a: Testimonial, b: Testimonial)
    requires forall f :: Get(a, f) == Get(b, f)
    ensures a == b
  {
    assert Get(a, Id) == Get(b, Id);
    assert Get(a, AuthorName) == Get(b, AuthorName);
    assert Get(a, AuthorRole) == Get(b, AuthorRole);
    assert Get(a, AuthorCompany) == Get(b, AuthorCompany);
    assert Get(a, Content) == Get(b, Content);
    assert Get(a, Rating) == Get(b, Rating);
    assert Get(a, AuthorAvatar) == Get(b, AuthorAvatar);
    assert Get(a, IsFeatured) == Get(b, IsFeatured);
    assert Get(a, IsActive) == Get(b, IsActive);
    assert Get(a, SortOrder) == Get(b, SortOrder);
  }

  /** `{ ...t, [field]: value }`: field `f` becomes `v`, every other field
      keeps its value. With FieldsDetermineRecord this fixes the result. */
  function Set(t: Testimonial, f: Field, v: Value): (r: Testimonial)
    requires Fits(f, v)
    ensures Get(r, f) == v
    ensures forall g :: g != f ==> Get(r, g) == Get(t, g)
  {
    match f
    case Id => t.(id := v.ident)
    case AuthorName => t.(authorName := v.text)
    case AuthorRole => t.(authorRole := v.text)
    case AuthorCompany => t.(authorCompany := v.text)
    case Content => t.(content := v.text)
    case Rating => t.(rating := v.number)
    case AuthorAvatar => t.(authorAvatar := v.text)
    case IsFeatured => t.(isFeatured := v.flag)
    case IsActive => t.(isActive := v.flag)
    case SortOrder => t.(sortOrder := v.number)
  }

  /** The record `addTestimonial` appends to a list of length `n`. */
  function NewTestimonial(n: nat): (t: Testimonial)
    ensures !HasId(t)
    ensures t.rating == 5 && !t.isFeatured && t.isActive && t.sortOrder == n
  {
    Testimonial(None, "", "", "", "", 5, "", false, true, n)
  }

  /** One write of a batch save. */
  datatype Write = Update(id: string, row: Testimonial) | Insert(row: Testimonial)

  /** The write `saveTestimonials` issues for record `t` at position `index`:
      the record with `sort_order` set to its position, as an update keyed
      by its id when it has one and as an insert otherwise. */
  function WriteFor(t: Testimonial, index: nat): (w: Write)
    ensures w.row == t.(sortOrder := index)
    ensures w.Update? <==> HasId(t)
    ensures w.Update? ==> w.id == t.id.value
  {
    if HasId(t) then Update(t.id.value, t.(sortOrder := index)) else Insert(t.(sortOrder := index))
  }

  /** The writes of a batch save, one per record, in list order. */
  function SaveWrites(ts: seq<Testimonial>): (ws: seq<Write>)
    ensures |ws| == |ts|
    ensures forall i :: 0 <= i < |ts| ==> ws[i] == WriteFor(ts[i], i)
  {
    seq(|ts|, i requires 0 <= i < |ts| => WriteFor(ts[i], i))
  }

  /** The `sort_order` values a batch save sends, in list order. */
  function SentSortOrders(ws: seq<Write>): seq<int>
  {
    seq(|ws|, i requires 0 <= i < |ws| => ws[i].row.sortOrder)
  }

  /** The sort orders sent are exactly 0, 1, ..., n - 1: dense, zero-based,
      in list order. */
  lemma SaveSortOrderIsDense(ts: seq<Testimonial>)
    ensures SentSortOrders(SaveWrites(ts)) == Range(|ts|)
  {
  }

  /** Apart from `sort_order`, every write carries its record unchanged,
      and records with an id are updated under that id. */
  lemma SaveWritesCarryRecords(ts: seq<Testimonial>, i: nat)
    requires i < |ts|
    ensures SaveWrites(ts)[i].row.(sortOrder := ts[i].sortOrder) == ts[i]
    ensures HasId(ts[i]) ==> SaveWrites(ts)[i] == Update(ts[i].id.value, ts[i].(sortOrder := i))
    ensures !HasId(ts[i]) ==> SaveWrites(ts)[i] == Insert(ts[i].(sortOrder := i))
  {
  }

  /** What one call of the batch resolved to: the row the backend returned
      (inserts use `.select().single()`, updates return none) and its error,
      which the editor never looks at. */
  datatype Reply = Reply(data: Option<Testimonial>, error: Option<string>)

  /** The list after a batch save: a record without an id is replaced by the
      row returned for it, when there is one; every other record is kept
      exactly as it was, including its old `sort_order`. */
  function Merge(ts: seq<Testimonial>, replies: seq<Reply>): (r: seq<Testimonial>)
    requires |replies| == |ts|
    ensures |r| == |ts|
    ensures forall i :: 0 <= i < |ts| && HasId(ts[i]) ==> r[i] == ts[i]
    ensures forall i :: 0 <= i < |ts| && !HasId(ts[i]) && replies[i].data.Some? ==> r[i] == replies[i].data.value
    ensures forall i :: 0 <= i < |ts| && replies[i].data.None? ==> r[i] == ts[i]
  {
    seq(|ts|, i requires 0 <= i < |ts| =>
      if replies[i].data.Some? && !HasId(ts[i]) then replies[i].data.value else ts[i])
  }

  /** The merge depends on the returned rows only: two batches of replies
      that differ in their error fields give the same list. */
  lemma MergeIgnoresErrors(ts: seq<Testimonial>, a: seq<Reply>, b: seq<Reply>)
    requires |a| == |ts| && |b| == |ts|
    requires forall i :: 0 <= i < |ts| ==> a[i].data == b[i].data
    ensures Merge(ts, a) == Merge(ts, b)
  {
  }

  /** When every insert comes back with a row that has an id, every record
      has an id after the merge, so the next save sends only updates. */
  lemma SavedRecordsAllHaveIds(ts: seq<Testimonial>, replies: seq<Reply>)
    requires |replies| == |ts|
    requires forall i :: 0 <= i < |ts| && !HasId(ts[i]) ==>
               replies[i].data.Some? && HasId(replies[i].data.value)
    ensures forall i :: 0 <= i < |ts| ==> HasId(Merge(ts, replies)[i])
    ensures forall i :: 0 <= i < |ts| ==> SaveWrites(Merge(ts, replies))[i].Update?
  {
    var m := Merge(ts, replies);
    forall i | 0 <= i < |ts| ensures HasId(m[i]) {
      if !HasId(ts[i]) {
        assert m[i] == replies[i].data.value;
      }
    }
  }

  class TestimonialEditor {
    var testimonials: seq<Testimonial>
    var isLoading: bool
    var isSaving: bool

    /** The editor before its first fetch. */
    constructor ()
      ensures testimonials == [] && isLoading && !isSaving
    {
      testimonials := [];
      isLoading := true;
      isSaving := false;
    }

    /** `fetchTestimonials`: the rows ordered by `sort_order` replace the
        list; a failed fetch leaves the list as it was. Loading ends either
        way. */
    method Fetch(rows: Option<seq<Testimonial>>)
      modifies this`testimonials, this`isLoading
      ensures testimonials == if rows.Some? then rows.value else old(testimonials)
      ensures !isLoading
    {
      if rows.Some? {
        testimonials := rows.value;
      }
      isLoading := false;
    }

    /** `addTestimonial`: appends one record with the defaults; no backend
        call. */
    method Add()
      modifies this`testimonials
      ensures testimonials == old(testimonials) + [NewTestimonial(|old(testimonials)|)]
    {
      testimonials := testimonials + [NewTestimonial(|testimonials|)];
    }

    /** `updateTestimonial(index, field, value)`: only field `f` of record
        `index` changes. */
    method Update(index: nat, f: Field, v: Value)
      requires index < |testimonials| && Fits(f, v)
      modifies this`testimonials
      ensures |testimonials| == |old(testimonials)|
      ensures testimonials[index] == Set(old(testimonials)[index], f, v)
      ensures forall k :: 0 <= k < |testimonials| && k != index ==> testimonials[k] == old(testimonials)[k]
    {
      testimonials := testimonials[index := Set(testimonials[index], f, v)];
    }

    /** `removeTestimonial(index)`. A record with an id needs the user's
        confirmation and a successful delete of that id before it leaves the
        list; a record without one is dropped at once. Returns the id of the
        delete sent to the backend, if any. */
    method Remove(index: nat, confirmed: bool, deleteSucceeds: bool) returns (deleted: Option<string>)
      requires index < |testimonials|
      modifies this`testimonials
      ensures var t := old(testimonials)[index];
              deleted == if HasId(t) && confirmed then Some(t.id.value) else None
      ensures var t := old(testimonials)[index];
              testimonials == if !HasId(t) || (confirmed && deleteSucceeds)
                              then RemoveAt(old(testimonials), index)
                              else old(testimonials)
    {
      var t := testimonials[index];
      deleted := None;
      if HasId(t) {
        if !confirmed {
          return;
        }
        deleted := Some(t.id.value);
        if !deleteSucceeds {
          return;
        }
      }
      testimonials := RemoveAt(testimonials, index);
    }

    /** `saveTestimonials`. Sends `SaveWrites` of the list. When every call
        resolves (`replies` is present) the returned rows are merged in and
        success is reported, whatever the per-call errors say; when a call
        throws (`replies` is absent) the list is left as it was. */
    method Save(replies: Option<seq<Reply>>) returns (writes: seq<Write>, ok: bool)
      requires replies.Some? ==> |replies.value| == |testimonials|
      modifies this`testimonials, this`isSaving
      ensures writes == SaveWrites(old(testimonials))
      ensures ok <==> replies.Some?
      ensures testimonials == if ok then Merge(old(testimonials), replies.value) else old(testimonials)
      ensures !isSaving
    {
      isSaving := true;
      writes := SaveWrites(testimonials);
      ok := replies.Some?;
      if ok {
        testimonials := Merge(testimonials, replies.value);
      }
      isSaving := false;
    }
  }

  /** The scenario of removing a persisted record, adding a new one and
      saving: the backend sees one delete, then an update that moves the
      remaining record to position 0 and an insert at position 1. */
  method RemoveAddSaveScenario(a: Testimonial, b: Testimonial, newRow: Testimonial)
    requires a.id == Some("1") && b.id == Some("2") && a.sortOrder == 0 && b.sortOrder == 1
  {
    var editor := new TestimonialEditor();
    editor.Fetch(Some([a, b]));
    var deleted := editor.Remove(0, true, true);
    assert deleted == Some("1");
    assert editor.testimonials == [b];
    editor.Add();
    var writes, ok := editor.Save(Some([Reply(None, None), Reply(Some(newRow), None)]));
    assert writes == [Update("2", b.(sortOrder := 0)), Insert(NewTestimonial(1).(sortOrder := 1))];
    assert ok && editor.testimonials == [b, newRow];
  }
}

=== FILE: text.dfy ===
/** The string operations the site applies to titles, search terms and file
    names, restricted to ASCII: `toLowerCase`, the `\s` character class,
    `includes`, `startsWith`, `trim` and `split`. */
module Text {

  predicate IsUpper(c: char) { 'A' <= c <= 'Z' }

  predicate IsLowerLetter(c: char) { 'a' <= c <= 'z' }

  predicate IsDigit(c: char) { '0' <= c <= '9' }

  /** The ASCII members of JavaScript's `\s`: space, tab, line feed,
      vertical tab, form feed and carriage return. */
  predicate IsSpace(c: char) { c == ' ' || 9 <= c as int <= 13 }

  predicate IsHyphen(c: char) { c == '-' }

  /** `toLowerCase` on one ASCII character. */
  function LowerChar(c: char): (r: char)
    ensures !IsUpper(r)
    ensures IsUpper(c) ==> r as int == c as int + 32
    ensures !IsUpper(c) ==> r == c
  {
    if IsUpper(c) then (c as int + 32) as char else c
  }

  /** `s.toLowerCase()`. */
  function Lower(s: string): (r: string)
    ensures |r| == |s|
    ensures forall i :: 0 <= i < |s| ==> r[i] == LowerChar(s[i])
  {
    seq(|s|, i requires 0 <= i < |s| => LowerChar(s[i]))
  }

  /** Lowering a string that has no upper-case letter leaves it as it is. */
  lemma LowerWithoutUpper(s: string)
    requires forall i :: 0 <= i < |s| ==> !IsUpper(s[i])
    ensures Lower(s) == s
  {
  }

  /** Lowering twice is lowering once. */
  lemma LowerIdempotent(s: string)
    ensures Lower(Lower(s)) == Lower(s)
  {
    LowerWithoutUpper(Lower(s));
  }

  /** `s.startsWith(prefix)`. */
  predicate StartsWith(s: string, prefix: string)
  {
    |prefix| <= |s| && s[..|prefix|] == prefix
  }

  /** `hay.includes(needle)`, scanning the start positions left to right. */
  predicate Includes(hay: string, needle: string)
    decreases |hay|
  {
    StartsWith(hay, needle) || (hay != [] && Includes(hay[1..], needle))
  }

  /** `needle` occurs in `hay` starting at position `i`. */
  ghost predicate OccursAt(hay: string, needle: string, i: int)
  {
    0 <= i && i + |needle| <= |hay| && hay[i..i + |needle|] == needle
  }

  /** `Includes` agrees with the textbook definition of a substring: some
      window of `hay` is `needle`. */
  lemma {:induction false} IncludesIffOccurs(hay: string, needle: string)
    ensures Includes(hay, needle) <==> exists i :: OccursAt(hay, needle, i)
    decreases |hay|
  {
    if StartsWith(hay, needle) {
      assert OccursAt(hay, needle, 0);
    } else if hay == [] {
    } else {
      IncludesIffOccurs(hay[1..], needle);
      if exists i :: OccursAt(hay, needle, i) {
        var i :| OccursAt(hay, needle, i);
        assert i != 0;
        assert hay[1..][i - 1..i - 1 + |needle|] == hay[i..i + |needle|];
        assert OccursAt(hay[1..], needle, i - 1);
      }
      if exists j :: OccursAt(hay[1..], needle, j) {
        var j :| OccursAt(hay[1..], needle, j);
        assert hay[j + 1..j + 1 + |needle|] == hay[1..][j..j + |needle|];
        assert OccursAt(hay, needle, j + 1);
      }
    }
  }

  /** Every string includes the empty string. */
  lemma IncludesEmpty(hay: string)
    ensures Includes(hay, "")
  {
    assert StartsWith(hay, "");
  }

  /** Leading whitespace removed. */
  function TrimStart(s: string): (r: string)
    ensures |r| <= |s| && r == s[|s| - |r|..]
    ensures forall i :: 0 <= i < |s| - |r| ==> IsSpace(s[i])
    ensures r != [] ==> !IsSpace(r[0])
    decreases |s|
  {
    if s != [] && IsSpace(s[0]) then TrimStart(s[1..]) else s
  }

  /** Trailing whitespace removed. */
  function TrimEnd(s: string): (r: string)
    ensures |r| <= |s| && r == s[..|r|]
    ensures forall i :: |r| <= i < |s| ==> IsSpace(s[i])
    ensures r != [] ==> !IsSpace(r[|r| - 1])
    decreases |s|
  {
    if s != [] && IsSpace(s[|s| - 1]) then TrimEnd(s[..|s| - 1]) else s
  }

  /** `s.trim()`: `s` without its leading and trailing whitespace. */
  function Trim(s: string): (r: string)
    ensures |r| <= |s|
    ensures r != [] ==> !IsSpace(r[0]) && !IsSpace(r[|r| - 1])
  {
    TrimEnd(TrimStart(s))
  }

  /** `Trim(s)` is `s[a..b]`, and everything outside the window is
      whitespace. */
  ghost predicate TrimWindow(s: string, a: int, b: int)
  {
    && 0 <= a <= b <= |s| && Trim(s) == s[a..b]
    && (forall i :: 0 <= i < a ==> IsSpace(s[i]))
    && (forall i :: b <= i < |s| ==> IsSpace(s[i]))
  }

  /** `trim` returns a window of its input that neither starts nor ends with
      whitespace, and everything it cut off is whitespace. */
  lemma TrimIsWindow(s: string)
    ensures exists a, b :: TrimWindow(s, a, b)
    ensures Trim(s) != [] ==> !IsSpace(Trim(s)[0]) && !IsSpace(Trim(s)[|Trim(s)| - 1])
  {
    var t := TrimStart(s);
    var r := TrimEnd(t);
    var a := |s| - |t|;
    var b := a + |r|;
    assert r == s[a..b] by {
      assert t == s[a..];
      assert r == t[..|r|];
    }
    assert forall i :: b <= i < |s| ==> IsSpace(s[i]) by {
      forall i | b <= i < |s| ensures IsSpace(s[i]) {
        assert s[i] == t[i - a];
      }
    }
    assert TrimWindow(s, a, b);
  }

  /** A string trims to the empty string exactly when it is all whitespace;
      this is the test `if (url.trim())` makes. */
  lemma TrimEmptyIffBlank(s: string)
    ensures Trim(s) == [] <==> forall i :: 0 <= i < |s| ==> IsSpace(s[i])
  {
  }

  /** A string without whitespace is its own trim. */
  lemma TrimWithoutSpace(s: string)
    requires forall i :: 0 <= i < |s| ==> !IsSpace(s[i])
    ensures Trim(s) == s
  {
  }

  /** `s.split(sep)` for a one-character separator: the pieces between the
      separators, always at least one. */
  function Split(s: string, sep: char): (r: seq<string>)
    ensures |r| >= 1
    ensures forall k :: 0 <= k < |r| ==> sep !in r[k]
    ensures |r| == 1 <==> sep !in s
    decreases |s|
  {
    if s == [] then [""]
    else
      var rest := Split(s[1..], sep);
      if s[0] == sep then [""] + rest
      else [[s[0]] + rest[0]] + rest[1..]
  }

  /** `parts.join(sep)`. */
  function Join(parts: seq<string>, sep: char): string
    requires |parts| >= 1
    decreases |parts|
  {
    if |parts| == 1 then parts[0] else parts[0] + [sep] + Join(parts[1..], sep)
  }

  /** Splitting and joining again with the same separator gives back the
      original string. */
  lemma {:induction false} JoinSplit(s: string, sep: char)
    ensures Join(Split(s, sep), sep) == s
    decreases |s|
  {
    if s != [] {
      var rest := Split(s[1..], sep);
      JoinSplit(s[1..], sep);
      if s[0] == sep {
        assert Split(s, sep)[1..] == rest;
      } else {
        var r := Split(s, sep);
        assert r[0] == [s[0]] + rest[0];
        if |rest| > 1 {
          assert r[1..] == rest[1..];
          assert Join(rest, sep) == rest[0] + [sep] + Join(rest[1..], sep);
        }
      }
    }
  }

  /** `s.split(sep).pop()`: the last piece. */
  function LastPiece(s: string, sep: char): (r: string)
    ensures sep !in r
  {
    Split(s, sep)[|Split(s, sep)| - 1]
  }

  /** Text after a separator that holds no separator is the last piece,
      whatever comes before the separator. */
  lemma {:induction false} LastPieceAfterSep(a: string, sep: char, b: string)
    requires sep !in b
    ensures LastPiece(a + [sep] + b, sep) == b
    decreases |a|
  {
    var s := a + [sep] + b;
    if a == [] {
      assert s[0] == sep && s[1..] == b;
      JoinSplit(b, sep);
    } else {
      assert s[0] == a[0];
      assert s[1..] == a[1..] + [sep] + b;
      LastPieceAfterSep(a[1..], sep, b);
      assert sep in s[1..] by {
        assert s[1..][|a| - 1] == sep;
      }
    }
  }

  /** A string without the separator splits into itself alone. */
  lemma {:induction false} SplitWithoutSep(s: string, sep: char)
    requires sep !in s
    ensures Split(s, sep) == [s]
    decreases |s|
  {
    if s != [] {
      assert sep !in s[1..];
      SplitWithoutSep(s[1..], sep);
      assert [s[0]] + s[1..] == s;
    }
  }

  /** `s[k..]` is `last`, and position `k` is the start of `s` or follows a
      separator. */
  ghost predicate SuffixAfterSep(s: string, sep: char, k: int, last: string)
  {
    0 <= k <= |s| && s[k..] == last && (k == 0 || s[k - 1] == sep)
  }

  /** The last piece of `s.split(sep)` starts at the beginning of `s` or
      right after a separator, and runs to the end. */
  lemma {:induction false} SplitLastStartsAfterSep(s: string, sep: char)
    ensures exists k :: SuffixAfterSep(s, sep, k, LastPiece(s, sep))
    decreases |s|
  {
    var r := Split(s, sep);
    var last := LastPiece(s, sep);
    assert last == r[|r| - 1];
    if s == [] {
      assert SuffixAfterSep(s, sep, 0, last);
    } else {
      var tail := s[1..];
      var rest := Split(tail, sep);
      var restLast := LastPiece(tail, sep);
      assert restLast == rest[|rest| - 1];
      SplitLastStartsAfterSep(tail, sep);
      var k' :| SuffixAfterSep(tail, sep, k', restLast);
      if s[0] == sep {
        assert r == [""] + rest;
        assert last == restLast;
        assert s[k' + 1..] == tail[k'..];
        assert SuffixAfterSep(s, sep, k' + 1, last);
      } else if |rest| > 1 {
        assert r == [[s[0]] + rest[0]] + rest[1..];
        assert last == restLast;
        assert s[k' + 1..] == tail[k'..];
        assert SuffixAfterSep(s, sep, k' + 1, last);
      } else {
        assert r == [[s[0]] + rest[0]];
        assert sep !in tail;
        if k' > 0 {
          assert false;
        }
        assert restLast == tail;
        assert last == s;
        assert SuffixAfterSep(s, sep, 0, last);
      }
    }
  }

  /** The last piece is the whole string exactly when the string holds no
      separator. */
  lemma LastPieceWholeIff(s: string, sep: char)
    ensures LastPiece(s, sep) == s <==> sep !in s
  {
    if sep !in s {
      SplitWithoutSep(s, sep);
    }
  }
}
